=== FILE: README.md ===
# Minesweeper board logic in Dafny

This project models the board logic of a JavaFX minesweeper, with rendering
stripped away. The model covers three parts:

- The cell state machine: a content tag (ZERO..EIGHT, MINE, EXPLODED) and a
  visibility state (EMPTY, FLAG, QUESTION_MARK, SHOWN).
- The grid algorithms:
  - the mine-count clamp;
  - deferred mine placement, which keeps the 3×3 block of the first click mine-free;
  - neighbour counting;
  - the stack-based flood fill;
  - the chord reveal, gated on the flag count;
  - click dispatch with win and loss detection;
  - reset.
- Three pieces of the game window: the three-slot counter display, the score
  reset and the board effects of losing and winning.

The board is an immutable `Grid` value:

- `rows`, `cols` and `totMines`;
- `cells`, a `seq<seq<Cell>>` indexed `[row][col]`;
- the running count `totCellShown`;
- `disabled`, which stands for the JavaFX `setDisable` flag that stops clicks
  reaching the cells.

Each Java method that mutates the board is a function or method that returns
the new board.

Modules, in dependency order:

| file | module | models |
|---|---|---|
| cells.dfy | `Options`, `Cells` | `Cell.java`: enums, queries, `setType`, `Show`, `ToggleState`, `Reset`; the queries `isMine`, `isFlag`, `isQuestionMark`, `isShown` and `CanBeShown` (Cell.java:32-48) are one-line transcriptions, the predicates `Cell.IsMine` and so on |
| grids.dfy | `Grids` | `Grid.java`: board shape, `IsInBounds` (Grid.java:31, transcribed as the predicate `InBounds`), the 3×3 block, the clamp, construction, `Reset`, the board invariants |
| seqs.dfy | `Seqs` | distinctness facts about sequences, used for the shuffle |
| generation.dfy | `Generation` | `Generate`, `PlaceMines`, `CountAdjacentMines`, `CalculateNearMines` |
| flood.dfy | `FloodFill` | `Propagate`: the loop as written, its divergence, and the terminating version |
| ending.dfy | `Ending` | the board effects of `Game.Lose` and `Game.Win` |
| clicks.dfy | `Clicks` | `ShowObviousCells`, `Click`, and the win test |
| display.dfy | `Display` | `Game.UpdateDigitsView` as a value → three-slot function |
| game.dfy | `Games` | `Game.ResetScore` and `Game.Reset` |

Three invariants run through the model:

- `Settled` holds after every completed move. It has three parts:
  - `totCellShown` is the number of SHOWN cells;
  - before the first reveal every tag is ZERO;
  - after it, the board is `Generated`: exactly `totMines` mines, every count
    right, and no mine visible.
- `Live` is `Settled` plus "not yet won".
- `GameInv` is a playable size plus `Live` whenever the board is enabled.

`Clicks.Click` preserves `GameInv`. The first click of a game never loses,
and a primary click wins exactly when every safe cell is revealed.

The 3×3 neighbourhood is the offset list `Grids.Around`, walked in the same
row-major order as the source's nested `for (r = row-1 ..) for (c = col-1 ..)`
loops. Out-of-bounds offsets are skipped, as `IsInBounds` skips them.

## Model

| member | source | states |
|---|---|---|
| Cells.KindOrdinal | src/main/java/com/tonidotpy/minesweeper/Cell.java:7-19 | every content tag has an ordinal in 0..10, and the tag is one of ZERO..EIGHT exactly when its ordinal is at most 8 |
| Cells.KindAt | src/main/java/com/tonidotpy/minesweeper/Cell.java:42-44 | `Type.values()[index]` names a tag exactly for indices 0..10, and that tag's ordinal is the index |
| Cells.KindAtOrdinal | src/main/java/com/tonidotpy/minesweeper/Cell.java:7-19 | looking a tag up by its own ordinal gives the tag back; together with KindAt, ordinal and lookup are inverse |
| Cells.Cell.TotNearMines | src/main/java/com/tonidotpy/minesweeper/Cell.java:39 | a mine (MINE or EXPLODED) reports 0; any other cell reports its count; the result always lies in 0..8 |
| Cells.Cell.SetType | src/main/java/com/tonidotpy/minesweeper/Cell.java:42-45 | an index in 0..10 sets the tag with that ordinal; any other index leaves the cell unchanged; the state is never touched |
| Cells.Cell.Show | src/main/java/com/tonidotpy/minesweeper/Cell.java:60-61 | showing makes the cell SHOWN and keeps its tag |
| Cells.Cell.ToggleState | src/main/java/com/tonidotpy/minesweeper/Cell.java:72-73 | the mark cycles EMPTY → FLAG → QUESTION_MARK → EMPTY; a SHOWN cell (ordinal 3) wraps to FLAG; the result is never SHOWN and the tag is kept |
| Cells.ToggleThrice | src/main/java/com/tonidotpy/minesweeper/Cell.java:72-73 | three toggles restore any unrevealed cell |
| Cells.CanBeShownIffEmpty | src/main/java/com/tonidotpy/minesweeper/Cell.java:48 | a cell may be shown exactly when its state is EMPTY |
| Cells.Cell.Reset | src/main/java/com/tonidotpy/minesweeper/Cell.java:84-86 | a reset cell equals the one the constructor builds (Cell.java:51-54): ZERO and EMPTY |
| Grids.Reveal | src/main/java/com/tonidotpy/minesweeper/Grid.java:189-192 | revealing one cell shows it with its tag kept, adds one to `totCellShown`, and changes no other cell |
| Grids.RevealSets | src/main/java/com/tonidotpy/minesweeper/Grid.java:189-192 | revealing a hidden cell adds exactly that cell to the revealed set and removes it from the hidden set, so the counter stays equal to the number of revealed cells |
| Grids.Neighbour | src/main/java/com/tonidotpy/minesweeper/Grid.java:170-171 | each of the nine offsets visited by the nested block loops lands in the 3×3 block |
| Grids.NeighbourOf | src/main/java/com/tonidotpy/minesweeper/Grid.java:170-171 | every cell of the 3×3 block is visited by some offset, so the single offset loop covers the block |
| Grids.NeighbourInjective | src/main/java/com/tonidotpy/minesweeper/Grid.java:170-171 | the nine offsets visit nine different cells, so nothing in the block is counted twice |
| Grids.MinesAroundBound | src/main/java/com/tonidotpy/minesweeper/Grid.java:168-178 | a cell that is not a mine has at most 8 mines in its block |
| Grids.CountedZeroSafe | src/main/java/com/tonidotpy/minesweeper/Grid.java:122-131 | on a correctly numbered board, no cell tagged ZERO has a mine in its block |
| Grids.ClampMines | src/main/java/com/tonidotpy/minesweeper/Grid.java:45 | the mine count is at least 1; it is at most rows*cols-9 once rows*cols ≥ 10; a request inside the range is kept, one above it is cut to rows*cols-9, one below 1 is raised to 1; on a board of at most 9 cells the count is exactly 1 |
| Grids.NewGrid | src/main/java/com/tonidotpy/minesweeper/Grid.java:35-65 | a board exists for non-negative dimensions only; it has the requested size and the clamped mine count; every cell is ZERO/EMPTY, nothing is revealed, and the board is enabled |
| Grids.Reset | src/main/java/com/tonidotpy/minesweeper/Grid.java:220-228 | reset keeps the size and mine count, sets `totCellShown` to 0, enables the board, and makes every cell ZERO/EMPTY |
| Grids.ResetIsNew | src/main/java/com/tonidotpy/minesweeper/Grid.java:220-228 | resetting a board gives exactly the board the constructor builds for the same size and mine count, for every count the clamp keeps as it is (the constructor only ever stores such counts), tiny boards included |
| Grids.NewGridInv | src/main/java/com/tonidotpy/minesweeper/Grid.java:35-65 | a newly built board with rows*cols ≥ 10 satisfies the game invariant |
| Generation.CandidatesFacts | src/main/java/com/tonidotpy/minesweeper/Grid.java:107-114 | the candidate list holds, without repeats, exactly the in-bounds cells outside the 3×3 block of the click, and has at least rows*cols-9 entries |
| Generation.EnoughCandidates | src/main/java/com/tonidotpy/minesweeper/Grid.java:45 | on a board with rows*cols ≥ 10 the clamp leaves at least `totMines` candidates, so the placement loop never reads past the list |
| Generation.TinyBoardHasNoCandidates | src/main/java/com/tonidotpy/minesweeper/Grid.java:45 | on the 3×3 board the constructor builds, with the first click in the centre, the clamp still asks for one mine while the candidate list is empty, so no shuffled list is long enough to place it and the board is not of a playable size |
| Generation.PlaceMines | src/main/java/com/tonidotpy/minesweeper/Grid.java:106-121 | the first `totMines` entries of the shuffled candidates become MINE; they are `totMines` distinct in-bounds cells, none in the click's block; every other cell and every state is unchanged, and the mine set grows by exactly those cells |
| Generation.CountAround | src/main/java/com/tonidotpy/minesweeper/Grid.java:136-143 | the block loop counts exactly the in-bounds block cells that satisfy the test (flags here, mines below) |
| Generation.CountAdjacentMines | src/main/java/com/tonidotpy/minesweeper/Grid.java:168-178 | the result is the number of mines in the in-bounds 3×3 block, and lies in 0..8 for a cell that is not a mine |
| Generation.CalculateNearMines | src/main/java/com/tonidotpy/minesweeper/Grid.java:122-132 | afterwards every non-mine cell's number equals the mines in its block; mines, states and the mine set are untouched |
| Generation.Generate | src/main/java/com/tonidotpy/minesweeper/Grid.java:100-105 | generation enables the board, keeps every state and the counter, numbers every cell correctly, leaves the click's block as mine-free as before, and yields exactly `totMines` mines on a board without mines |
| FloodFill.Pushes | src/main/java/com/tonidotpy/minesweeper/Grid.java:195-201 | the pushes of one expansion are at most nine in-bounds, unrevealed block cells, and every such cell is pushed |
| FloodFill.Revealed | src/main/java/com/tonidotpy/minesweeper/Grid.java:189-192 | a popped cell that passes `CanBeShown` is revealed and counted; any other popped cell, flagged or questioned included, is left alone |
| FloodFill.StepPass | src/main/java/com/tonidotpy/minesweeper/Grid.java:184-202 | one pass of the loop as written reveals the popped cell if it is EMPTY and changes no other cell, keeps the counter equal to the revealed cells, and leaves the rest of the stack in place; a popped cell not tagged ZERO pushes nothing, a ZERO one pushes every unrevealed cell of its block, and a flagged or question-marked ZERO cell pushes itself back |
| FloodFill.RunGrows | src/main/java/com/tonidotpy/minesweeper/Grid.java:183-203 | any number of passes of the loop as written only turn EMPTY cells into revealed ones, never changing a mark or a tag, and the counter stays equal to the revealed cells |
| FloodFill.StepAgrees | src/main/java/com/tonidotpy/minesweeper/Grid.java:194-202 | while no flagged or questioned ZERO cell exists, a step of the loop as written equals a step of the corrected loop, and no such cell appears |
| FloodFill.RunsAgree | src/main/java/com/tonidotpy/minesweeper/Grid.java:183-203 | on such a board, any number of iterations of the loop as written equal the corrected loop's |
| FloodFill.TrappedRunsForever | src/main/java/com/tonidotpy/minesweeper/Grid.java:194-202 | once a marked ZERO cell is on top of the stack, the loop as written never empties its stack |
| FloodFill.MarkedNeighbourHangs | src/main/java/com/tonidotpy/minesweeper/Grid.java:183-203 | on any board, a fill started at an EMPTY ZERO cell next to a flagged or question-marked ZERO cell still has a non-empty stack after any number of passes of the loop as written |
| FloodFill.FlaggedZeroHangs | src/main/java/com/tonidotpy/minesweeper/Grid.java:183-203 | on a 1×2 board of ZERO cells whose second cell is flagged, a fill started at the first cell still has a non-empty stack after any number of passes |
| FloodFill.StepDecreases | src/main/java/com/tonidotpy/minesweeper/Grid.java:183-203 | each step of the corrected loop decreases the pair (unrevealed cells, stack weight) lexicographically, so the loop terminates |
| FloodFill.Propagate | src/main/java/com/tonidotpy/minesweeper/Grid.java:180-204 | the flood fill only turns EMPTY cells into SHOWN ones, so it never overwrites a flag or question mark, and it keeps the counter equal to the revealed cells; it shows an EMPTY start cell; every EMPTY neighbour of an expanded ZERO cell ends up shown; every newly shown cell is the start or next to an expanded cell, and is joined to the start by a chain of neighbouring cells, each hidden before the fill and each one before it a ZERO cell the fill revealed (or the start); on a correctly numbered board, starting from a non-mine, it never shows a mine; its result is the loop as written when no marked ZERO exists |
| Ending.Detonate | src/main/java/com/tonidotpy/minesweeper/Game.java:262-263 | the detonated cell, if any, becomes EXPLODED with its state kept; every other cell is unchanged |
| Ending.Lose | src/main/java/com/tonidotpy/minesweeper/Game.java:259-272 | after a loss the detonated cell is EXPLODED and SHOWN, every other mine keeps its tag and is shown, every other cell and `totCellShown` are unchanged, and the board is disabled |
| Ending.LoseReveals | src/main/java/com/tonidotpy/minesweeper/Game.java:262-271 | the mines after a loss are the mines before plus the detonated cell, and the revealed cells are the ones before plus every mine |
| Ending.Win | src/main/java/com/tonidotpy/minesweeper/Game.java:282-285 | a win disables the board and changes no cell and no counter |
| Clicks.FlagsCoverMines | src/main/java/com/tonidotpy/minesweeper/Grid.java:136-145 | on a correctly numbered board, when every flag of the block is on a mine and the flags number at least the cell's count, every mine of the block is flagged |
| Clicks.RevealAt | src/main/java/com/tonidotpy/minesweeper/Grid.java:152-158 | one reveal of the chord shows the EMPTY cell with its tag, counts it, and on a ZERO cell flood-fills from it: every EMPTY neighbour of a ZERO cell it reveals is shown, every cell it reveals is joined to that cell by a chain of neighbouring hidden cells, each one before it a revealed ZERO cell, and on a correctly numbered board no mine is reached |
| Clicks.ChordPass | src/main/java/com/tonidotpy/minesweeper/Grid.java:147-164 | one pass of the chord loop at the k-th block cell: an EMPTY cell there is revealed and flood-filled from when ZERO, the cells covered so far stay covered, the fill stays closed, and every revealed cell is joined by a chain of revealed ZERO cells to a hidden cell of the block; if it is a mine, the game is lost with that cell EXPLODED and every mine shown; no mine moves |
| Clicks.ShowObviousCells | src/main/java/com/tonidotpy/minesweeper/Grid.java:134-167 | with fewer flags than the count, nothing changes and the answer is true; otherwise every EMPTY block cell is shown, every EMPTY neighbour of a ZERO cell it reveals is shown, and nothing else is revealed: each revealed cell is joined to a hidden cell of the block by a chain of neighbouring cells, each one before it a ZERO cell the chord revealed; on revealing a mine it answers false, the board is disabled, a hidden mine of the block is EXPLODED and shown, and every mine is shown; when the flags sit only on mines of a correctly numbered board the answer is true |
| Clicks.WinCheck | src/main/java/com/tonidotpy/minesweeper/Grid.java:89-91 | on a settled board the test `totCellShown >= rows*cols - totMines` holds exactly when every non-mine cell is revealed |
| Clicks.Mark | src/main/java/com/tonidotpy/minesweeper/Grid.java:93-96 | the secondary button moves an unrevealed cell to its next mark, EMPTY → FLAG → QUESTION_MARK → EMPTY, and changes nothing else; a revealed cell is left alone |
| Clicks.MarkThrice | src/main/java/com/tonidotpy/minesweeper/Grid.java:93-96 | three secondary clicks on one cell give back the same board |
| Clicks.MarkKeepsSettled | src/main/java/com/tonidotpy/minesweeper/Grid.java:93-96 | a secondary click keeps the revealed set, the tags and therefore the board invariant |
| Clicks.ShuffleExists | src/main/java/com/tonidotpy/minesweeper/Grid.java:107-115 | on a playable board there is a valid shuffle of the candidates, so a first click can always be served |
| Clicks.GenerateIfFirst | src/main/java/com/tonidotpy/minesweeper/Grid.java:71-73 | generation happens only when nothing is revealed yet; it re-enables the board, keeps every state, leaves the mines of the click's block as they were, and on a live board it produces a generated board with no mine on the clicked cell |
| Clicks.OpenSafe | src/main/java/com/tonidotpy/minesweeper/Grid.java:79-81 | the flood fill from a hidden non-mine shows that cell, only turns EMPTY cells into SHOWN ones (no mark or tag changes) with the counter following, keeps a settled generated board settled, shows every EMPTY cell next to a ZERO cell it revealed, and reveals only cells joined to the clicked cell by a chain of neighbouring hidden cells, each one before it a ZERO cell it revealed |
| Clicks.OpenCell | src/main/java/com/tonidotpy/minesweeper/Grid.java:70-82 | a click on an EMPTY cell either loses, which happens only when that cell was a mine before the click, leaving it EXPLODED and SHOWN with every mine shown and the board disabled, or shows the cell and flood-fills from it, so every EMPTY cell next to a ZERO cell it revealed is shown too, every revealed cell is joined to the clicked cell by a chain of neighbouring hidden cells, each one before it a revealed ZERO cell, every mark survives, the counter follows the revealed cells, and tags change only by generation; mines move only at generation; the first click of a live game never loses, and a click that does not lose keeps the board settled |
| Clicks.Uncover | src/main/java/com/tonidotpy/minesweeper/Grid.java:69-88 | unless it loses, the primary button never overwrites a mark or hides a cell, keeps the counter equal to the revealed cells, and changes tags only when it generates the board; on an EMPTY cell it shows it and flood-fills from it, every revealed cell being joined to the clicked cell by a chain of revealed ZERO cells; on a revealed numbered cell with at least as many flags around as its number, it shows every EMPTY cell of the block and flood-fills from the ZERO ones, every revealed cell being joined the same way to a hidden cell of the block; on a marked cell, a revealed ZERO cell, or a numbered cell with too few flags, it changes nothing and does not lose; a loss explodes a cell of the block that was a hidden mine before the click, the clicked cell itself when it was hidden, and shows every mine; a chord whose flags sit only on mines of a correctly numbered board never loses |
| Clicks.PrimaryClick | src/main/java/com/tonidotpy/minesweeper/Grid.java:69-96 | a primary click that does not lose keeps every mark, keeps the counter equal to the revealed cells, changes tags only at generation, and shows an EMPTY clicked cell and its flood-fill region, or every EMPTY cell of a chorded block and the flood-fill regions of its ZERO cells, each revealed cell joined to the clicked cell or a hidden block cell by a chain of revealed ZERO cells; a click that reveals nothing leaves the board alone, or only disables it as a win when every safe cell was already shown; a loss explodes a hidden mine of the block (the clicked cell itself when it was hidden), and a chord whose flags sit only on mines never loses; on an enabled board with the invariant, a primary click keeps the invariant, never loses on the first reveal, and wins exactly when it does not lose and every safe cell is revealed; a game still in play stays enabled |
| Clicks.Click | src/main/java/com/tonidotpy/minesweeper/Grid.java:66-98 | a disabled board and the middle button ignore the click; the secondary button marks; the primary button, unless it loses, keeps every mark and shows the clicked EMPTY cell with its flood-fill region, or the EMPTY cells of a chorded block with theirs, every revealed cell joined by a chain of revealed ZERO cells to the clicked cell or a hidden block cell, and changes nothing but the win flag when it reveals nothing; a loss explodes a hidden mine of the block, the clicked cell itself when it was hidden; a chord whose flags sit only on mines never loses; once the board is generated no click moves a mine; a lost or won game is disabled; every click preserves the game invariant |
| Display.DigitImage | src/main/java/com/tonidotpy/minesweeper/ImageManager.java:22 | the lookup gives the digit picture for 0..9, the dark image for index 10 (ImageManager.java:55-62 fills the table with ten digits, the dark image and the minus sign, and the bound is one below its length), and no image for any other index; it never gives the minus sign |
| Display.SlotOf | src/main/java/com/tonidotpy/minesweeper/Game.java:132-139 | a negative entry draws the dark image, as does the entry 10; any other entry goes through the digit lookup |
| Display.DigitsView | src/main/java/com/tonidotpy/minesweeper/Game.java:123-154 | three slots; below -99 all minus; -99..-10 reads minus, tens, units; -9..-1 reads off, minus, units; for every non-negative value the units digit is always lit and the tens only above 9; for 0..999 the hundreds only above 99, with no leading zeros; for 1000..1099 (the time the timer draws just before it ends the game) the hundreds slot is dark, because index 10 of the digit table is the dark image; from 1100 up the hundreds slot has no image |
| Display.ReadingRoundTrip | src/main/java/com/tonidotpy/minesweeper/Game.java:123-154 | every value from -99 to 999 is drawn so that reading the slots back gives the value |
| Display.ViewInjective | src/main/java/com/tonidotpy/minesweeper/Game.java:123-154 | two values in -99..999 are never drawn alike |
| Display.SaturatedBelow | src/main/java/com/tonidotpy/minesweeper/Game.java:141-144 | all values below -99 are drawn alike, as three minus signs, which reads as no number |
| Games.ResetScore | src/main/java/com/tonidotpy/minesweeper/Game.java:99-102 | the score becomes the board's clamped mine count, and for counts up to 999 the counter reads that count |
| Games.Reset | src/main/java/com/tonidotpy/minesweeper/Game.java:157-163 | a new game resets the board and then the score, so the counter shows the mine count of a fresh board |
| Games.ResetStartsPlay | src/main/java/com/tonidotpy/minesweeper/Game.java:157-163 | after a reset a playable board satisfies the game invariant, and resetting again changes nothing |

## Left out

- Images and layout: `ImageManager`, the pressed and released cell images, and every `Resize*` method. These are rendering, I/O and floating-point UI sizing.
- The application bootstrap, the menu, the face button and the alert dialogs: framework code with no board state.
- The timer (`Timeline`, `SetTime`, `ResetTime`): it is time-driven. Its only board effect is `Lose(null)` when the time passes 999. That effect is `Ending.Lose` with `None`, and `Display.DigitsView` covers drawing the time.
- The flag-score handler (Game.java:80-97): whether it sees a cell's state before or after the toggle depends on the order in which JavaFX runs handlers, which is not visible from the source. The score counter is modelled only at `ResetScore`.
- `Collections.shuffle`: randomness becomes a parameter. `Clicks.Click` and `Generation.Generate` take the shuffled candidate list, and `ValidShuffle` demands only that it is a permutation of the candidates. `Clicks.ShuffleExists` shows one always exists on a playable board.
- Event ordering and re-entrancy: a click is one atomic step from board to board.
- Generation.Generate: requires a valid shuffle, and therefore at least `totMines` candidates. When the first click leaves fewer than `totMines` candidates (possible only on a board smaller than 10 cells, such as a click in the centre of a 3×3 board) the source throws when it reads the list; the model does not call it there (see Findings). A click that leaves enough candidates, such as a corner click on a 3×3 board, is modelled.
- Clicks.Click: the properties that rest on the invariant (first click safe, win exactly when all safe cells are shown) are stated for boards of at least 10 cells, the `Playable` sizes.
- Display.DigitsView: uses unbounded integers. The Java `-value` overflows for `Integer.MIN_VALUE`, and that case is not modelled.
- FloodFill.Propagate: models the corrected loop, which always terminates. It agrees with the loop as written whenever no flagged or questioned ZERO cell exists; the divergence on such a board is shown separately (see Findings).
- Clicks.ShowObviousCells: the pass over the nine block offsets is one loop over `Grids.Around`, in the same order as the source's two nested loops.

## Findings

| source | as written | input that shows it | evidently intended | confidence | as-written member | corrected member |
|---|---|---|---|---|---|---|
| src/main/java/com/tonidotpy/minesweeper/Grid.java:194-202 | the flood fill expands a popped cell whenever its tag is ZERO, whatever its state; a flagged or question-marked ZERO cell is not shown, stays unrevealed, and pushes itself again | flag a cell before the first click, then click one of its neighbours: the click's block is kept mine-free, so whenever generation also leaves the flagged cell with no adjacent mine, both are ZERO; the fill reveals the clicked cell, pushes the flagged one, and that cell pushes itself forever (proved for every such board) | expand only a cell that is shown after the pop, so marked cells stop the fill | high (proved; not executed) | FloodFill.MarkedNeighbourHangs | FloodFill.Propagate |
| src/main/java/com/tonidotpy/minesweeper/Grid.java:45 | the clamp `max(1, min(totMines, rows*cols - 9))` asks for at least one mine even when no cell lies outside the first click's block, and `PlaceMines` then reads past the empty candidate list | a 3×3 board with the first click in the centre: one mine requested, zero candidates, so `nums.get(0)` fails | boards smaller than 10 cells are refused, so the clamped count always fits the candidates | medium (proved; not executed) | Generation.TinyBoardHasNoCandidates | Generation.EnoughCandidates |

=== FILE: cells.dfy ===
/** A value that may be missing: the model's stand-in for a nullable reference
    or for a lookup that can fail. */
module Options {

  datatype Option<+T> = None | Some(value: T)
}

/** One square of the board: what it hides (a neighbour count, a mine, or the
    mine that went off) and what the player sees (nothing, a flag, a question
    mark, or the content). Images are not modelled. */
module Cells {
  import opened Options

  /** A neighbour count, the payload of the types ZERO .. EIGHT. */
  type Count = n: int | 0 <= n <= 8

  /** The hidden content of a cell. `Near(k)` is the enum constant with
      ordinal k (ZERO .. EIGHT), followed by MINE and EXPLODED. */
  datatype Kind = Near(count: Count) | Mine | Exploded

  /** Number of constants of the content enum. */
  const KindCount := 11

  /** The position of a content tag in its enum. */
  function KindOrdinal(k: Kind): (i: int)
    ensures 0 <= i < KindCount
    ensures k.Near? <==> i <= 8
  {
    match k
    case Near(n) => n
    case Mine => 9
    case Exploded => 10
  }

  /** The content tag with a given position, if there is one. */
  function KindAt(i: int): (r: Option<Kind>)
    ensures r.Some? <==> 0 <= i < KindCount
    ensures r.Some? ==> KindOrdinal(r.value) == i
  {
    if 0 <= i <= 8 then Some(Near(i))
    else if i == 9 then Some(Mine)
    else if i == 10 then Some(Exploded)
    else None
  }

  /** Looking up a tag by its own position gives the tag back. */
  lemma KindAtOrdinal(k: Kind)
    ensures KindAt(KindOrdinal(k)) == Some(k)
  {
  }

  /** The visibility of a cell, in enum order. */
  datatype State = Empty | Flag | QuestionMark | Shown

  function StateOrdinal(s: State): (i: int)
    ensures 0 <= i < 4
  {
    match s
    case Empty => 0
    case Flag => 1
    case QuestionMark => 2
    case Shown => 3
  }

  function StateAt(i: int): (s: State)
    requires 0 <= i < 4
    ensures StateOrdinal(s) == i
  {
    if i == 0 then Empty else if i == 1 then Flag else if i == 2 then QuestionMark else Shown
  }

  datatype Cell = Cell(kind: Kind, state: State)
  {
    predicate IsMine() { kind == Mine || kind == Exploded }
    predicate IsFlag() { state == Flag }
    predicate IsQuestionMark() { state == QuestionMark }
    predicate IsShown() { state == Shown }

    /** The number drawn on a revealed cell: the ordinal of its tag, or 0 for
        a mine. */
    function TotNearMines(): (n: int)
      ensures 0 <= n <= 8
      ensures IsMine() ==> n == 0
      ensures !IsMine() ==> n == kind.count
    {
      if IsMine() then 0 else KindOrdinal(kind)
    }

    /** Changes the tag to the one at position `index`; an index outside the
        enum leaves the cell as it is. */
    function SetType(index: int): (c: Cell)
      ensures c.state == state
      ensures 0 <= index < KindCount ==> KindOrdinal(c.kind) == index
      ensures !(0 <= index < KindCount) ==> c == this
    {
      match KindAt(index)
      case Some(k) => this.(kind := k)
      case None => this
    }

    /** Only a cell the player has neither revealed nor marked may be shown. */
    predicate CanBeShown() { !IsShown() && !IsFlag() && !IsQuestionMark() }

    function Show(): (c: Cell)
      ensures c.IsShown() && c.kind == kind
    {
      this.(state := Shown)
    }

    /** Advances the mark by one step of the cycle of the first three states;
        a shown cell (ordinal 3) lands on FLAG. */
    function ToggleState(): (c: Cell)
      ensures c.kind == kind
      ensures state == Empty ==> c.state == Flag
      ensures state == Flag ==> c.state == QuestionMark
      ensures state == QuestionMark ==> c.state == Empty
      ensures state == Shown ==> c.state == Flag
      ensures !c.IsShown()
    {
      this.(state := StateAt((StateOrdinal(state) + 1) % 3))
    }

    function Reset(): (c: Cell)
      ensures c == Fresh
    {
      Fresh
    }
  }

  /** A cell as built by the constructor: count zero, nothing shown. */
  const Fresh := Cell(Near(0), Empty)

  /** A cell may be shown exactly when its state is EMPTY. */
  lemma CanBeShownIffEmpty(c: Cell)
    ensures c.CanBeShown() <==> c.state == Empty
  {
  }

  /** Three presses of the secondary button restore any unrevealed cell. */
  lemma ToggleThrice(c: Cell)
    requires !c.IsShown()
    ensures c.ToggleState().ToggleState().ToggleState() == c
  {
  }
}

=== FILE: clicks.dfy ===
/** Mouse clicks on a cell: the primary button reveals (generating the board
    on the first reveal, flood-filling from ZERO cells, or revealing the
    block of a numbered cell whose mines are all flagged), the secondary
    button cycles the mark of a hidden cell. A click can lose or win the
    game. */
module Clicks {
  import opened Options
  import opened Cells
  import opened Grids
  import opened Generation
  import opened FloodFill
  import opened Ending

  // ---------------------------------------------------------------------
  // Revealing the block of a numbered cell

  /** The flagged cells of the block of `p`. */
  ghost function Flags(g: Grid, p: Pos): set<Pos>
    requires Shape(g)
  {
    AroundWhere(g, p, IsFlagCell)
  }

  /** Every EMPTY cell of the block of `p` is revealed in `h`. */
  ghost predicate BlockOpened(g: Grid, h: Grid, p: Pos)
    requires Shape(g) && Shape(h) && SameSize(g, h)
  {
    forall q :: InBounds(g, q) && Adjacent(p, q) && At(g, q).state == Empty ==> At(h, q).IsShown()
  }

  /** Every EMPTY cell next to a ZERO cell that `h` reveals and `g` does not
      is revealed too: the flood fill stops only at marked and numbered
      cells. */
  ghost predicate FillClosed(g: Grid, h: Grid)
    requires Shape(g) && Shape(h) && SameSize(g, h)
  {
    forall e, n :: && InBounds(g, e) && !At(g, e).IsShown() && At(h, e).IsShown() && At(h, e).kind == Near(0)
                   && InBounds(g, n) && Adjacent(e, n) && At(g, n).state == Empty
                   ==> At(h, n).IsShown()
  }

  /** Every cell that `h` reveals and `g` does not is joined to `p` by a
      chain of neighbouring cells hidden on `g`, each one before it a ZERO
      cell `h` reveals: an open reveals nothing beyond the region of the
      clicked cell. */
  ghost predicate OpenedFrom(g: Grid, h: Grid, p: Pos)
    requires Shape(g) && Shape(h) && SameSize(g, h)
  {
    forall q :: InBounds(g, q) && !At(g, q).IsShown() && At(h, q).IsShown() ==> Linked(g, h, p, q)
  }

  /** `q` is joined by a chain to a cell of the block of `p` hidden on `g`. */
  ghost predicate ChordLinked(g: Grid, h: Grid, p: Pos, q: Pos)
    requires Shape(g) && Shape(h) && SameSize(g, h)
  {
    exists r :: InBounds(g, r) && Adjacent(p, r) && !At(g, r).IsShown() && Linked(g, h, r, q)
  }

  /** Every cell that `h` reveals and `g` does not is joined by a chain to a
      hidden cell of the block of `p`: a chord reveals nothing beyond the
      regions of the cells it opens. */
  ghost predicate ChordedFrom(g: Grid, h: Grid, p: Pos)
    requires Shape(g) && Shape(h) && SameSize(g, h)
  {
    forall q :: InBounds(g, q) && !At(g, q).IsShown() && At(h, q).IsShown() ==> ChordLinked(g, h, p, q)
  }

  /** Every cell of `h` is the cell of `g`, or an EMPTY cell of `g` now
      shown with its tag kept. */
  ghost predicate CellsGrow(g: Grid, h: Grid)
    requires Shape(g) && Shape(h) && SameSize(g, h)
  {
    forall q :: InBounds(g, q) ==> At(h, q) == At(g, q) || (At(g, q).state == Empty && At(h, q) == At(g, q).Show())
  }

  /** Every cell keeps its state or goes from EMPTY to SHOWN: no flag or
      question mark is overwritten and nothing is hidden again. */
  ghost predicate StatesGrow(g: Grid, h: Grid)
    requires Shape(g) && Shape(h) && SameSize(g, h)
  {
    forall q :: InBounds(g, q) ==> At(h, q).state == At(g, q).state || (At(g, q).state == Empty && At(h, q).IsShown())
  }

  lemma SubsetSameCard<T>(a: set<T>, b: set<T>)
    requires a <= b && |b| <= |a|
    ensures a == b
  {
    assert b == a + (b - a);
    assert |b - a| == 0;
  }

  /** When every flag of the block sits on a mine and there are at least as
      many flags as the cell's number, every mine of the block is flagged. */
  lemma FlagsCoverMines(g: Grid, p: Pos)
    requires Shape(g) && InBounds(g, p) && Counted(g) && !At(g, p).IsMine()
    requires Flags(g, p) <= MinesAround(g, p) && |Flags(g, p)| >= At(g, p).TotNearMines()
    ensures forall q :: InBounds(g, q) && Adjacent(p, q) && At(g, q).IsMine() ==> At(g, q).IsFlag()
  {
    BlockMembers(p);
    assert |MinesAround(g, p)| == At(g, p).TotNearMines();
    SubsetSameCard(Flags(g, p), MinesAround(g, p));
    forall q | InBounds(g, q) && Adjacent(p, q) && At(g, q).IsMine()
      ensures At(g, q).IsFlag()
    {
      assert q in MinesAround(g, p);
      assert q in Flags(g, p);
    }
  }

  /** A cell revealed between `a` and `c` was revealed between `a` and `b`
      or between `b` and `c`. */
  lemma NewlyTrans(a: Grid, b: Grid, c: Grid)
    requires Shape(a) && Grows(a, b) && Grows(b, c) && Grows(a, c)
    ensures forall x :: Newly(a, c, x) ==> Newly(a, b, x) || Newly(b, c, x)
  {
  }

  /** One reveal of the chord loop at `q`, an EMPTY cell: shown, counted, and
      flood-filled from when it is ZERO. */
  method RevealAt(g: Grid, q: Pos) returns (h: Grid)
    requires Shape(g) && InBounds(g, q) && At(g, q).state == Empty
    ensures Grows(g, h) && CounterKept(g, h) && At(h, q).IsShown()
    ensures At(h, q).kind == At(g, q).kind
    ensures ZeroSafe(g) && !At(g, q).IsMine() ==> forall x :: Newly(g, h, x) ==> !At(g, x).IsMine()
    ensures FillClosed(g, h) && OpenedFrom(g, h, q)
  {
    h := Reveal(g, q);
    RevealGrows(g, q);
    if At(h, q).kind == Near(0) {
      var h1 := h;
      ghost var steps;
      h, steps := Propagate(h1, q);
      ChainFill(g, h1, h, q);
      RevealThenFill(g, h1, h, q);
    }
  }

  /** A reveal at `q` followed by a flood fill from `q` is closed and
      reveals nothing beyond its region. */
  lemma RevealThenFill(g: Grid, h1: Grid, h: Grid, q: Pos)
    requires Shape(g) && InBounds(g, q) && At(g, q).state == Empty && h1 == Reveal(g, q)
    requires Grows(g, h1) && Grows(h1, h) && Grows(g, h)
    requires forall e, n :: Expanded(h1, h, q, true, e) && InBounds(h1, n) && Adjacent(e, n)
                            ==> At(h, n).state != Empty
    requires forall x :: Newly(h1, h, x) ==> Linked(h1, h, q, x)
    ensures FillClosed(g, h) && OpenedFrom(g, h, q)
  {
    forall e, n | && InBounds(g, e) && !At(g, e).IsShown() && At(h, e).IsShown() && At(h, e).kind == Near(0)
                  && InBounds(g, n) && Adjacent(e, n) && At(g, n).state == Empty
      ensures At(h, n).IsShown()
    {
      assert Expanded(h1, h, q, true, e);
    }
    forall x | InBounds(g, x) && !At(g, x).IsShown() && At(h, x).IsShown()
      ensures Linked(g, h, q, x)
    {
      if x == q {
        LinkedSelf(g, h, q);
      } else {
        assert Newly(h1, h, x);
        LinkedEarlier(g, h1, h, q, x);
      }
    }
  }

  lemma RevealGrows(g: Grid, q: Pos)
    requires Shape(g) && InBounds(g, q) && At(g, q).state == Empty
    ensures Grows(g, Reveal(g, q)) && CounterKept(g, Reveal(g, q))
    ensures forall x :: Newly(g, Reveal(g, q), x) ==> x == q
  {
    RevealSets(g, q);
  }

  /** A reveal at `q` followed by a flood fill from `q`. */
  lemma ChainFill(g: Grid, h1: Grid, h: Grid, q: Pos)
    requires Shape(g) && InBounds(g, q) && At(g, q).state == Empty
    requires h1 == Reveal(g, q) && Grows(g, h1) && CounterKept(g, h1)
    requires forall x :: Newly(g, h1, x) ==> x == q
    requires Grows(h1, h) && CounterKept(h1, h)
    requires ZeroSafe(h1) && !At(h1, q).IsMine() ==> forall x :: Newly(h1, h, x) ==> !At(h, x).IsMine()
    ensures Grows(g, h) && CounterKept(g, h) && At(h, q).IsShown() && At(h, q).kind == At(g, q).kind
    ensures ZeroSafe(g) && !At(g, q).IsMine() ==> forall x :: Newly(g, h, x) ==> !At(g, x).IsMine()
  {
    GrowsTrans(g, h1, h);
    NewlyTrans(g, h1, h);
    SameKindsSameMines(g, h1);
  }

  /** An EMPTY cell of `g` is revealed in `h`. */
  ghost predicate Covered(g: Grid, h: Grid, q: Pos)
    requires Shape(g) && Grows(g, h)
  {
    InBounds(g, q) && At(g, q).state == Empty ==> At(h, q).IsShown()
  }

  /** The chord loop's progress survives one more pass. */
  lemma CoveredKept(g: Grid, h: Grid, h1: Grid, p: Pos, k: int)
    requires Shape(g) && 0 <= k < 9 && Grows(g, h) && Grows(h, h1) && Grows(g, h1)
    requires forall j :: 0 <= j < k ==> Covered(g, h, Neighbour(p, j))
    requires InBounds(g, Neighbour(p, k)) && At(h, Neighbour(p, k)).state == Empty ==> At(h1, Neighbour(p, k)).IsShown()
    ensures forall j :: 0 <= j < k + 1 ==> Covered(g, h1, Neighbour(p, j))
  {
    forall j | 0 <= j < k + 1
      ensures Covered(g, h1, Neighbour(p, j))
    {
      if j < k {
        assert Covered(g, h, Neighbour(p, j));
      }
    }
  }

  /** The loss routine run on a revealed mine of the chord. */
  lemma ChordLoss(g: Grid, h2: Grid, q: Pos)
    requires Shape(g) && Grows(g, h2) && InBounds(g, q) && At(h2, q).IsMine() && At(g, q).state == Empty
    ensures var h1 := Lose(h2, Some(q));
            && Shape(h1) && SameSize(g, h1) && h1.disabled
            && At(g, q).IsMine() && At(h1, q) == Cell(Exploded, Shown)
            && (forall x :: InBounds(h1, x) && At(h1, x).IsMine() ==> At(h1, x).IsShown())
            && (forall x :: InBounds(g, x) ==> At(h1, x).IsMine() == At(g, x).IsMine())
  {
    LoseShowsAllMines(h2, Some(q));
    LoseKeepsMineCells(h2, q);
  }

  /** The chord loop after its first `k` passes, none of which revealed a
      mine: only EMPTY cells revealed, counted, the first `k` cells of the
      block covered, no mine revealed when the numbers are right, and the
      regions closed and joined to the block. */
  ghost predicate ChordSoFar(g: Grid, h: Grid, p: Pos, k: int)
    requires Shape(g)
  {
    && 0 <= k <= 9 && Grows(g, h) && CounterKept(g, h)
    && (forall j :: 0 <= j < k ==> Covered(g, h, Neighbour(p, j)))
    && (ZeroSafe(g) ==> forall q :: Newly(g, h, q) ==> !At(g, q).IsMine())
    && FillClosed(g, h) && ChordedFrom(g, h, p)
  }

  /** One pass of the chord loop, at the k-th cell of the block of `p`:
      an EMPTY cell is revealed; if it is a mine the game is lost. */
  method ChordPass(g: Grid, h: Grid, p: Pos, k: int) returns (h1: Grid, ok: bool)
    requires Shape(g) && 0 <= k < 9 && ChordSoFar(g, h, p, k)
    ensures Shape(h1) && SameSize(g, h1)
    ensures forall q :: InBounds(g, q) ==> At(h1, q).IsMine() == At(g, q).IsMine()
    ensures ok ==> ChordSoFar(g, h1, p, k + 1)
    ensures !ok ==> && h1.disabled
                    && InBounds(g, Neighbour(p, k)) && At(g, Neighbour(p, k)).IsMine()
                    && At(g, Neighbour(p, k)).state == Empty
                    && At(h1, Neighbour(p, k)) == Cell(Exploded, Shown)
                    && forall q :: InBounds(h1, q) && At(h1, q).IsMine() ==> At(h1, q).IsShown()
  {
    var q := Neighbour(p, k);
    if InBounds(g, q) && At(h, q).CanBeShown() {
      assert At(h, q).state == Empty by {
        CanBeShownIffEmpty(At(h, q));
      }
      var h2 := RevealAt(h, q);
      GrowsTrans(g, h, h2);
      if At(h2, q).IsMine() {
        h1, ok := Lose(h2, Some(q)), false;
        ChordLoss(g, h2, q);
        return;
      }
      PassKept(g, h, h2, p, k);
      h1, ok := h2, true;
    } else {
      CoveredKept(g, h, h, p, k);
      h1, ok := h, true;
    }
  }

  /** A pass that reveals and fills from a safe cell of the block keeps the
      loop's progress. */
  lemma PassKept(g: Grid, h: Grid, h2: Grid, p: Pos, k: int)
    requires Shape(g) && 0 <= k < 9 && ChordSoFar(g, h, p, k)
    requires InBounds(g, Neighbour(p, k)) && At(h, Neighbour(p, k)).state == Empty
    requires Grows(h, h2) && CounterKept(h, h2) && At(h2, Neighbour(p, k)).IsShown() && !At(h2, Neighbour(p, k)).IsMine()
    requires ZeroSafe(h) && !At(h, Neighbour(p, k)).IsMine() ==> forall x :: Newly(h, h2, x) ==> !At(h, x).IsMine()
    requires FillClosed(h, h2) && OpenedFrom(h, h2, Neighbour(p, k))
    ensures ChordSoFar(g, h2, p, k + 1)
  {
    var q := Neighbour(p, k);
    GrowsTrans(g, h, h2);
    SafeKept(g, h, h2, q);
    CoveredKept(g, h, h2, p, k);
    ClosedTrans(g, h, h2);
    ChordedTrans(g, h, h2, p, q);
  }

  /** A fill from a safe cell adds no mine to the cells revealed so far. */
  lemma SafeKept(g: Grid, h: Grid, h2: Grid, q: Pos)
    requires Shape(g) && Grows(g, h) && Grows(h, h2) && Grows(g, h2) && InBounds(g, q) && !At(h2, q).IsMine()
    requires ZeroSafe(g) ==> forall x :: Newly(g, h, x) ==> !At(g, x).IsMine()
    requires ZeroSafe(h) && !At(h, q).IsMine() ==> forall x :: Newly(h, h2, x) ==> !At(h, x).IsMine()
    ensures ZeroSafe(g) ==> forall x :: Newly(g, h2, x) ==> !At(g, x).IsMine()
  {
    NewlyTrans(g, h, h2);
    if ZeroSafe(g) {
      SameKindsSameMines(g, h);
    }
  }

  /** A region closed over two successive fills is closed over both. */
  lemma ClosedTrans(g: Grid, h: Grid, h2: Grid)
    requires Shape(g) && Grows(g, h) && Grows(h, h2) && Grows(g, h2)
    requires FillClosed(g, h) && FillClosed(h, h2)
    ensures FillClosed(g, h2)
  {
    forall e, n | && InBounds(g, e) && !At(g, e).IsShown() && At(h2, e).IsShown() && At(h2, e).kind == Near(0)
                  && InBounds(g, n) && Adjacent(e, n) && At(g, n).state == Empty
      ensures At(h2, n).IsShown()
    {
      if At(h, e).IsShown() {
        assert At(h, n).IsShown();
      } else if !At(h, n).IsShown() {
        assert At(h, n) == At(g, n);
      }
    }
  }

  /** One more reveal-and-fill at a hidden cell `q` of the block of `p`
      keeps the chord's region. */
  lemma ChordedTrans(g: Grid, h: Grid, h2: Grid, p: Pos, q: Pos)
    requires Shape(g) && Grows(g, h) && Grows(h, h2) && Grows(g, h2)
    requires InBounds(g, q) && Adjacent(p, q) && At(h, q).state == Empty
    requires ChordedFrom(g, h, p) && OpenedFrom(h, h2, q)
    ensures ChordedFrom(g, h2, p)
  {
    forall x | InBounds(g, x) && !At(g, x).IsShown() && At(h2, x).IsShown()
      ensures ChordLinked(g, h2, p, x)
    {
      if At(h, x).IsShown() {
        var r :| InBounds(g, r) && Adjacent(p, r) && !At(g, r).IsShown() && Linked(g, h, r, x);
        LinkedLater(g, h, h2, r, x);
      } else {
        LinkedEarlier(g, h, h2, q, x);
        assert !At(g, q).IsShown();
      }
    }
  }

  /** The chord: when the block of `p` holds at least as many flags as the
      number of `p`, every EMPTY cell of the block is revealed in row-major
      order, flood-filling from ZERO ones; revealing a mine loses the game
      and answers false. */
  method ShowObviousCells(g: Grid, p: Pos) returns (h: Grid, ok: bool)
    requires Shape(g) && InBounds(g, p)
    ensures Shape(h) && SameSize(g, h)
    ensures forall q :: InBounds(g, q) ==> At(h, q).IsMine() == At(g, q).IsMine()
    ensures |Flags(g, p)| < At(g, p).TotNearMines() ==> h == g && ok
    ensures ok ==> Grows(g, h) && CounterKept(g, h)
    ensures ok && |Flags(g, p)| >= At(g, p).TotNearMines() ==> BlockOpened(g, h, p)
    ensures ok && ZeroSafe(g) ==> forall q :: Newly(g, h, q) ==> !At(g, q).IsMine()
    ensures ok ==> FillClosed(g, h) && ChordedFrom(g, h, p)
    ensures !ok ==> h.disabled
    ensures !ok ==> exists q :: && InBounds(g, q) && Adjacent(p, q) && At(g, q).IsMine()
                               && At(g, q).state == Empty && At(h, q) == Cell(Exploded, Shown)
    ensures !ok ==> forall q :: InBounds(h, q) && At(h, q).IsMine() ==> At(h, q).IsShown()
    ensures Counted(g) && !At(g, p).IsMine() && Flags(g, p) <= MinesAround(g, p) ==> ok
  {
    var flags := CountAround(g, p, IsFlagCell);
    h, ok := g, true;
    if flags < At(g, p).TotNearMines() {
      return;
    }
    ghost var safe := Counted(g) && !At(g, p).IsMine() && Flags(g, p) <= MinesAround(g, p);
    if safe {
      FlagsCoverMines(g, p);
    }
    var k := 0;
    while k < 9
      invariant 0 <= k <= 9 && ChordSoFar(g, h, p, k)
      invariant safe ==> forall q :: InBounds(g, q) && Adjacent(p, q) && At(g, q).IsMine() ==> At(g, q).IsFlag()
    {
      var h1;
      h1, ok := ChordPass(g, h, p, k);
      if !ok {
        h := h1;
        return;
      }
      h := h1;
      k := k + 1;
    }
    forall q | InBounds(g, q) && Adjacent(p, q) && At(g, q).state == Empty
      ensures At(h, q).IsShown()
    {
      var j := NeighbourOf(p, q);
      assert Covered(g, h, Neighbour(p, j));
    }
  }

  // ---------------------------------------------------------------------
  // The click handler

  datatype Button = Primary | Secondary | Middle

  /** What a click did to the game. */
  datatype Outcome = Playing | Won | Lost

  /** Every cell that is not a mine is revealed. */
  ghost predicate AllSafeShown(g: Grid)
    requires Shape(g)
  {
    forall q :: InBounds(g, q) && !At(g, q).IsMine() ==> At(g, q).IsShown()
  }

  /** A board whose tags are all ZERO holds no mine. */
  lemma FreshNoMines(g: Grid)
    requires Shape(g) && forall q :: InBounds(g, q) ==> At(g, q).kind == Near(0)
    ensures Mines(g) == {}
  {
  }

  lemma CardDifference<T>(a: set<T>, b: set<T>)
    requires b <= a
    ensures |a - b| == |a| - |b|
  {
    assert a == b + (a - b);
  }

  /** On a settled board the win test `totCellShown >= rows*cols - totMines`
      holds exactly when every safe cell is revealed. */
  lemma WinCheck(b: Grid)
    requires Playable(b) && Settled(b)
    ensures b.totCellShown >= b.rows * b.cols - b.totMines <==> AllSafeShown(b)
  {
    if b.totCellShown == 0 {
      WinCheckUnmined(b);
    } else {
      WinCheckGenerated(b);
    }
  }

  lemma WinCheckUnmined(b: Grid)
    requires Playable(b) && Settled(b) && b.totCellShown == 0
    ensures !AllSafeShown(b)
  {
    PositionsMembers(b);
    assert b.rows > 0 && b.cols > 0;
    var o := Pos(0, 0);
    assert InBounds(b, o) && At(b, o).kind == Near(0);
    assert o !in ShownSet(b);
  }

  lemma WinCheckGenerated(b: Grid)
    requires Shape(b) && |Mines(b)| == b.totMines && b.totCellShown == |ShownSet(b)|
    requires forall q :: InBounds(b, q) && At(b, q).IsMine() ==> !At(b, q).IsShown()
    ensures b.totCellShown >= b.rows * b.cols - b.totMines <==> AllSafeShown(b)
  {
    var safe := Positions(b) - Mines(b);
    SafeCount(b);
    ShownSafe(b);
    if AllSafeShown(b) {
      SafeShown(b);
      assert ShownSet(b) == safe;
    } else {
      var q :| InBounds(b, q) && !At(b, q).IsMine() && !At(b, q).IsShown();
      UnshownSafe(b, q);
      CardDifference(safe, ShownSet(b));
    }
  }

  /** A board with `totMines` mines has that many fewer safe cells than cells. */
  lemma SafeCount(b: Grid)
    requires Shape(b) && |Mines(b)| == b.totMines
    ensures |Positions(b) - Mines(b)| == b.rows * b.cols - b.totMines
  {
    PositionsMembers(b);
    RectCard(b.rows, b.cols);
    CardDifference(Positions(b), Mines(b));
  }

  /** On a board whose mines are hidden, every revealed cell is safe. */
  lemma ShownSafe(b: Grid)
    requires Shape(b) && forall q :: InBounds(b, q) && At(b, q).IsMine() ==> !At(b, q).IsShown()
    ensures ShownSet(b) <= Positions(b) - Mines(b)
  {
  }

  /** When every safe cell is shown, each of them is in the revealed set. */
  lemma SafeShown(b: Grid)
    requires Shape(b) && AllSafeShown(b)
    ensures Positions(b) - Mines(b) <= ShownSet(b)
  {
    PositionsMembers(b);
  }

  /** A hidden safe cell is a safe cell outside the revealed set. */
  lemma UnshownSafe(b: Grid, q: Pos)
    requires Shape(b) && InBounds(b, q) && !At(b, q).IsMine() && !At(b, q).IsShown()
    ensures q in (Positions(b) - Mines(b)) - ShownSet(b)
  {
    PositionsMembers(b);
  }

  /** A reveal or flood fill on a generated board that reveals no mine
      leaves it settled. */
  lemma FillKeepsSettled(b1: Grid, b2: Grid, p: Pos)
    requires Shape(b1) && Generated(b1) && b1.totCellShown == |ShownSet(b1)|
    requires Grows(b1, b2) && CounterKept(b1, b2)
    requires forall q :: Newly(b1, b2, q) ==> !At(b1, q).IsMine()
    requires InBounds(b1, p) && At(b2, p).IsShown()
    ensures Settled(b2)
  {
    PositionsMembers(b2);
    assert p in ShownSet(b2);
    SameKindsSameMines(b1, b2);
    assert b2.totCellShown == |ShownSet(b2)| > 0;
    forall q | InBounds(b2, q) && At(b2, q).IsMine()
      ensures !At(b2, q).IsShown()
    {
      if !Newly(b1, b2, q) {
        assert At(b2, q) == At(b1, q);
      }
    }
    assert Generated(b2);
  }

  /** Generation on a board without mines and without revealed cells gives a
      generated board. */
  lemma GenerateGenerates(g: Grid, b1: Grid)
    requires Shape(g) && g.totCellShown == 0 && |ShownSet(g)| == 0 && Mines(g) == {}
    requires Shape(b1) && SameSize(g, b1) && b1.totCellShown == 0 && Counted(b1)
    requires forall q :: InBounds(g, q) ==> At(b1, q).state == At(g, q).state
    requires |Mines(b1)| == g.totMines
    ensures Generated(b1) && b1.totCellShown == |ShownSet(b1)|
  {
    PositionsMembers(g);
    PositionsMembers(b1);
    assert ShownSet(b1) == ShownSet(g) == {};
    forall q | InBounds(b1, q) && At(b1, q).IsMine()
      ensures !At(b1, q).IsShown()
    {
      assert q !in ShownSet(b1);
    }
  }

  /** Generation when nothing is revealed yet; any other board is left as
      it is. */
  method GenerateIfFirst(g: Grid, p: Pos, shuffled: seq<Pos>) returns (b: Grid)
    requires Shape(g) && InBounds(g, p)
    requires g.totCellShown == 0 ==> ValidShuffle(g, p, shuffled)
    ensures Shape(b) && SameSize(g, b) && b.totCellShown == g.totCellShown
    ensures forall q :: InBounds(g, q) ==> At(b, q).state == At(g, q).state
    ensures g.totCellShown != 0 ==> b == g
    ensures b.disabled == (g.disabled && g.totCellShown != 0)
    ensures Playable(g) && Live(g) ==> Generated(b) && b.totCellShown == |ShownSet(b)|
    ensures Playable(g) && Live(g) && g.totCellShown == 0 ==> !At(b, p).IsMine()
    ensures forall q :: InBounds(g, q) && Adjacent(p, q) ==> At(b, q).IsMine() == At(g, q).IsMine()
  {
    b := g;
    if g.totCellShown == 0 {
      ghost var unmined := Playable(g) && Live(g);
      if unmined {
        FreshNoMines(g);
      }
      b := Generate(g, p, shuffled);
      if unmined {
        GenerateGenerates(g, b);
      }
    }
  }

  /** A primary click on an EMPTY cell: generation on the first reveal,
      then the loss routine on a mine, the flood fill otherwise. */
  method OpenCell(g: Grid, p: Pos, shuffled: seq<Pos>) returns (b: Grid, lost: bool)
    requires Shape(g) && InBounds(g, p) && At(g, p).CanBeShown()
    requires g.totCellShown == 0 ==> ValidShuffle(g, p, shuffled)
    ensures Shape(b) && SameSize(g, b)
    ensures lost ==> && At(g, p).IsMine() && b.disabled && At(b, p) == Cell(Exploded, Shown)
                     && (forall q :: InBounds(b, q) && At(b, q).IsMine() ==> At(b, q).IsShown())
    ensures !lost ==> At(b, p).IsShown() && b.disabled == (g.disabled && g.totCellShown != 0)
    ensures !lost ==> SafeReveal(g, b, p)
    ensures g.totCellShown != 0 ==> forall q :: InBounds(g, q) ==> At(b, q).IsMine() == At(g, q).IsMine()
    ensures Playable(g) && Live(g) && g.totCellShown == 0 ==> !lost
    ensures Playable(g) && Live(g) && !lost ==> Settled(b)
  {
    var b1 := GenerateIfFirst(g, p, shuffled);
    assert Adjacent(p, p);
    if At(b1, p).IsMine() {
      b, lost := Lose(b1, Some(p)), true;
      LoseShowsAllMines(b1, Some(p));
      LoseKeepsMineCells(b1, p);
      return;
    }
    assert At(b1, p).state == Empty by {
      CanBeShownIffEmpty(At(g, p));
    }
    b := OpenSafe(b1, p);
    lost := false;
    GeneratedOpen(g, b1, b, p);
  }

  /** Generation keeps every state and the counter, so a fill from the
      generated board reveals, over the board before generation, what it
      reveals over the generated one. */
  lemma GeneratedOpen(g: Grid, b1: Grid, b: Grid, p: Pos)
    requires Shape(g) && Shape(b1) && SameSize(g, b1) && InBounds(g, p) && At(g, p).CanBeShown()
    requires forall q :: InBounds(g, q) ==> At(b1, q).state == At(g, q).state
    requires b1.totCellShown == g.totCellShown && (g.totCellShown != 0 ==> b1 == g)
    requires Grows(b1, b) && CounterKept(b1, b) && At(b, p).IsShown()
    requires FillClosed(b1, b) && OpenedFrom(b1, b, p)
    ensures SafeReveal(g, b, p)
  {
    PositionsMembers(g);
    assert ShownSet(b1) == ShownSet(g);
    forall q | InBounds(g, q) && !At(g, q).IsShown() && At(b, q).IsShown()
      ensures Linked(g, b, p, q)
    {
      LinkedEarlier(g, b1, b, p, q);
    }
  }

  /** The flood fill from a safe hidden cell: the cell ends up revealed, the
      kinds and the running state stay, and a settled generated board stays
      settled. */
  method OpenSafe(b1: Grid, p: Pos) returns (b: Grid)
    requires Shape(b1) && InBounds(b1, p) && At(b1, p).state == Empty && !At(b1, p).IsMine()
    ensures Shape(b) && SameSize(b1, b) && b.disabled == b1.disabled && At(b, p).IsShown()
    ensures forall q :: InBounds(b1, q) ==> At(b, q).kind == At(b1, q).kind
    ensures Generated(b1) && b1.totCellShown == |ShownSet(b1)| ==> Settled(b)
    ensures Grows(b1, b) && CounterKept(b1, b)
    ensures FillClosed(b1, b) && OpenedFrom(b1, b, p)
  {
    ghost var live := Generated(b1) && b1.totCellShown == |ShownSet(b1)|;
    if live {
      CountedZeroSafe(b1);
    }
    ghost var steps;
    b, steps := Propagate(b1, p);
    if live {
      FillKeepsSettled(b1, b, p);
    }
    FillRegion(b1, b, p);
  }

  /** A flood fill from an EMPTY cell `p` is closed and reveals nothing
      beyond its region. */
  lemma FillRegion(b1: Grid, b: Grid, p: Pos)
    requires Shape(b1) && InBounds(b1, p) && At(b1, p).state == Empty && Grows(b1, b)
    requires forall e, n :: Expanded(b1, b, p, true, e) && InBounds(b1, n) && Adjacent(e, n)
                            ==> At(b, n).state != Empty
    requires forall x :: Newly(b1, b, x) ==> Linked(b1, b, p, x)
    ensures FillClosed(b1, b) && OpenedFrom(b1, b, p)
  {
    forall e, n | && InBounds(b1, e) && !At(b1, e).IsShown() && At(b, e).IsShown() && At(b, e).kind == Near(0)
                  && InBounds(b1, n) && Adjacent(e, n) && At(b1, n).state == Empty
      ensures At(b, n).IsShown()
    {
      assert Expanded(b1, b, p, true, e);
    }
    forall x | InBounds(b1, x) && !At(b1, x).IsShown() && At(b, x).IsShown()
      ensures Linked(b1, b, p, x)
    {
      assert Newly(b1, b, x);
    }
  }

  // ---------------------------------------------------------------------
  // The secondary button

  /** The secondary button: a hidden cell moves to its next mark, a revealed
      cell is left alone. */
  function Mark(g: Grid, p: Pos): (h: Grid)
    requires Shape(g) && InBounds(g, p)
    ensures Shape(h) && SameSize(g, h) && h.totCellShown == g.totCellShown && h.disabled == g.disabled
    ensures At(g, p).IsShown() ==> h == g
    ensures !At(g, p).IsShown() ==> && At(h, p) == At(g, p).ToggleState()
                                     && At(h, p).kind == At(g, p).kind && !At(h, p).IsShown()
                                     && At(h, p).state != At(g, p).state
    ensures forall q :: InBounds(g, q) && q != p ==> At(h, q) == At(g, q)
  {
    if At(g, p).IsShown() then g else Put(g, p, At(g, p).ToggleState())
  }

  /** Three secondary clicks on a cell give the board back. */
  lemma MarkThrice(g: Grid, p: Pos)
    requires Shape(g) && InBounds(g, p)
    ensures Mark(Mark(Mark(g, p), p), p) == g
  {
    if !At(g, p).IsShown() {
      ToggleThrice(At(g, p));
      var h := Mark(Mark(Mark(g, p), p), p);
      assert forall r :: 0 <= r < g.rows ==> h.cells[r] == g.cells[r];
    }
  }

  /** A mark changes neither the revealed cells nor the content tags, so a
      settled board stays settled. */
  lemma MarkKeepsSettled(g: Grid, p: Pos)
    requires Shape(g) && InBounds(g, p) && Settled(g)
    ensures Settled(Mark(g, p))
  {
    MarkKeepsShown(g, p);
    SettledKept(g, Mark(g, p));
  }

  /** A board with the tags, the revealed cells and the counts of a settled
      board is settled. */
  lemma SettledKept(g: Grid, h: Grid)
    requires Shape(g) && Shape(h) && SameSize(g, h) && Settled(g)
    requires h.totCellShown == g.totCellShown && h.totMines == g.totMines && ShownSet(h) == ShownSet(g)
    requires forall q :: InBounds(g, q) ==> At(h, q).kind == At(g, q).kind && At(h, q).IsShown() == At(g, q).IsShown()
    ensures Settled(h)
  {
    SameKindsSameMines(g, h);
    assert h.totCellShown == |ShownSet(h)|;
    if g.totCellShown == 0 {
      assert forall q :: InBounds(h, q) ==> At(h, q).kind == At(g, q).kind == Near(0);
    } else {
      forall q | InBounds(h, q) && At(h, q).IsMine()
        ensures !At(h, q).IsShown()
      {
        assert At(g, q).IsMine();
      }
      assert Generated(h);
    }
  }

  lemma MarkKeepsShown(g: Grid, p: Pos)
    requires Shape(g) && InBounds(g, p)
    ensures ShownSet(Mark(g, p)) == ShownSet(g) && Mark(g, p).totMines == g.totMines
    ensures forall q :: InBounds(g, q) ==> && At(Mark(g, p), q).kind == At(g, q).kind
                                           && At(Mark(g, p), q).IsShown() == At(g, q).IsShown()
  {
    PositionsMembers(g);
  }

  // ---------------------------------------------------------------------
  // The primary button

  /** A shuffle of the candidates always exists on a playable board: the
      candidate list itself. */
  lemma ShuffleExists(g: Grid, p: Pos)
    requires Playable(g)
    ensures ValidShuffle(g, p, Candidates(g, p))
  {
    EnoughCandidates(g, p);
  }

  /** Every mine of the board is revealed. */
  ghost predicate AllMinesShown(g: Grid)
    requires Shape(g)
  {
    forall q :: InBounds(g, q) && At(g, q).IsMine() ==> At(g, q).IsShown()
  }

  /** A lost game shows every mine and the exploded cell next to the click. */
  ghost predicate LostAt(h: Grid, p: Pos)
    requires Shape(h)
  {
    && h.disabled && AllMinesShown(h)
    && exists q :: InBounds(h, q) && Adjacent(p, q) && At(h, q) == Cell(Exploded, Shown)
  }

  /** The click revealed a hidden mine of `g` in the block of `p`, and `h`
      shows it exploded; a click on a hidden cell detonates that very cell. */
  ghost predicate Detonated(g: Grid, h: Grid, p: Pos)
    requires Shape(g) && Shape(h) && SameSize(g, h) && InBounds(g, p)
  {
    exists q :: && InBounds(g, q) && Adjacent(p, q) && At(g, q).state == Empty && At(g, q).IsMine()
                && At(h, q) == Cell(Exploded, Shown) && (At(g, p).CanBeShown() ==> q == p)
  }

  /** A primary click on `p` chords: `p` is revealed and numbered, and its
      block holds at least as many flags as its number. */
  ghost predicate Chord(g: Grid, p: Pos)
    requires Shape(g) && InBounds(g, p)
  {
    At(g, p).IsShown() && At(g, p).TotNearMines() > 0 && |Flags(g, p)| >= At(g, p).TotNearMines()
  }

  /** A primary click on `p` reveals nothing: `p` is flagged or questioned,
      or revealed with a zero count, or revealed with fewer flags around it
      than its number. */
  ghost predicate Inert(g: Grid, p: Pos)
    requires Shape(g) && InBounds(g, p)
  {
    !At(g, p).CanBeShown() && !Chord(g, p)
  }

  /** A chord on a board whose numbers are right, every flag of the block
      sitting on a mine. */
  ghost predicate SafeChord(g: Grid, p: Pos)
    requires Shape(g) && InBounds(g, p)
  {
    Chord(g, p) && Counted(g) && Flags(g, p) <= MinesAround(g, p)
  }

  /** What a primary click on `p` that reveals no mine does to the board:
      marks survive and nothing is hidden again; the counter follows the
      revealed cells; tags change only when the click generates the board;
      an EMPTY clicked cell is shown and flood-filled from, a chord shows
      the EMPTY cells of its block and flood-fills from the ZERO ones, and
      nothing outside those regions is revealed. */
  ghost predicate SafeReveal(g: Grid, h: Grid, p: Pos)
    requires Shape(g) && Shape(h) && SameSize(g, h) && InBounds(g, p)
  {
    && StatesGrow(g, h) && CounterKept(g, h)
    && (g.totCellShown != 0 || !At(g, p).CanBeShown() ==> CellsGrow(g, h))
    && (At(g, p).CanBeShown() ==> At(h, p).IsShown() && FillClosed(g, h) && OpenedFrom(g, h, p))
    && (Chord(g, p) ==> BlockOpened(g, h, p) && FillClosed(g, h) && ChordedFrom(g, h, p))
  }

  /** The part of the primary button that reveals: an EMPTY cell is opened,
      a revealed numbered cell has its block chorded, anything else is left
      alone. `lost` tells whether a mine was revealed. */
  method Uncover(g: Grid, p: Pos, shuffled: seq<Pos>) returns (h: Grid, lost: bool)
    requires Shape(g) && InBounds(g, p)
    requires At(g, p).CanBeShown() && g.totCellShown == 0 ==> ValidShuffle(g, p, shuffled)
    ensures Shape(h) && SameSize(g, h)
    ensures lost ==> LostAt(h, p) && Detonated(g, h, p)
    ensures SafeChord(g, p) ==> !lost
    ensures !lost ==> h.disabled == (g.disabled && (g.totCellShown != 0 || !At(g, p).CanBeShown()))
    ensures g.totCellShown != 0 ==> forall q :: InBounds(g, q) ==> At(h, q).IsMine() == At(g, q).IsMine()
    ensures !lost ==> SafeReveal(g, h, p)
    ensures Inert(g, p) ==> h == g && !lost
    ensures Playable(g) && Live(g) && g.totCellShown == 0 ==> !lost
    ensures Playable(g) && Live(g) && !lost ==> Settled(h)
  {
    var cell := At(g, p);
    if cell.CanBeShown() {
      h, lost := OpenCell(g, p, shuffled);
      if lost {
        assert Adjacent(p, p);
        assert At(g, p).state == Empty by {
          CanBeShownIffEmpty(At(g, p));
        }
      }
    } else if cell.IsShown() && cell.TotNearMines() > 0 {
      var ok;
      h, ok := ShowObviousCells(g, p);
      lost := !ok;
      if ok {
        ChordReveals(g, h, p);
        if Playable(g) && Live(g) {
          ChordKeepsSettled(g, h, p);
        }
      }
    } else {
      h, lost := g, false;
      NothingReveals(g, p);
    }
  }

  /** A chord that reveals no mine is a safe reveal. */
  lemma ChordReveals(g: Grid, h: Grid, p: Pos)
    requires Shape(g) && InBounds(g, p) && At(g, p).IsShown()
    requires Grows(g, h) && CounterKept(g, h) && FillClosed(g, h) && ChordedFrom(g, h, p)
    requires |Flags(g, p)| >= At(g, p).TotNearMines() ==> BlockOpened(g, h, p)
    ensures SafeReveal(g, h, p)
  {
  }

  /** A click that reveals nothing and leaves the board as it is, is a safe
      reveal. */
  lemma NothingReveals(g: Grid, p: Pos)
    requires Shape(g) && InBounds(g, p) && Inert(g, p)
    ensures SafeReveal(g, g, p)
  {
  }

  /** A chord that reveals no mine keeps a settled board settled. */
  lemma ChordKeepsSettled(g: Grid, h: Grid, p: Pos)
    requires Playable(g) && Live(g) && InBounds(g, p) && At(g, p).IsShown()
    requires Grows(g, h) && CounterKept(g, h)
    requires ZeroSafe(g) ==> forall q :: Newly(g, h, q) ==> !At(g, q).IsMine()
    ensures Settled(h)
  {
    PositionsMembers(g);
    assert p in ShownSet(g);
    CountedZeroSafe(g);
    FillKeepsSettled(g, h, p);
  }

  lemma SameCellsSameWin(b: Grid, h: Grid)
    requires Shape(b) && Shape(h) && SameSize(b, h) && h.cells == b.cells
    ensures AllSafeShown(h) == AllSafeShown(b)
  {
    assert forall q :: InBounds(h, q) ==> At(h, q) == At(b, q);
  }

  /** Disabling a board after a safe reveal keeps it a safe reveal. */
  lemma SameCellsSameReveals(g: Grid, b: Grid, h: Grid, p: Pos)
    requires Shape(g) && Shape(b) && Shape(h) && SameSize(g, b) && SameSize(b, h) && h.cells == b.cells
    requires InBounds(g, p) && h.totCellShown == b.totCellShown && SafeReveal(g, b, p)
    ensures SafeReveal(g, h, p)
  {
    assert forall q :: InBounds(h, q) ==> At(h, q) == At(b, q);
    assert ShownSet(h) == ShownSet(b);
    forall r, q | Linked(g, b, r, q)
      ensures Linked(g, h, r, q)
    {
      var s :| Chain(g, b, s) && s[0] == r && s[|s| - 1] == q;
      assert Chain(g, h, s);
    }
  }

  /** The primary button on an enabled board: reveal, then the win test
      `totCellShown >= rows*cols - totMines` unless a mine was revealed. */
  method PrimaryClick(g: Grid, p: Pos, shuffled: seq<Pos>) returns (h: Grid, outcome: Outcome)
    requires Shape(g) && InBounds(g, p)
    requires At(g, p).CanBeShown() && g.totCellShown == 0 ==> ValidShuffle(g, p, shuffled)
    ensures Shape(h) && SameSize(g, h)
    ensures outcome == Lost ==> LostAt(h, p) && Detonated(g, h, p)
    ensures SafeChord(g, p) ==> outcome != Lost
    ensures outcome == Won ==> h.disabled
    ensures outcome != Lost ==> SafeReveal(g, h, p)
    ensures Inert(g, p) ==> (h == g && outcome == Playing) || (h == Win(g) && outcome == Won)
    ensures g.totCellShown != 0 ==> forall q :: InBounds(g, q) ==> At(h, q).IsMine() == At(g, q).IsMine()
    ensures GameInv(g) && !g.disabled ==> && GameInv(h)
                                          && (g.totCellShown == 0 ==> outcome != Lost)
                                          && (outcome == Won <==> outcome != Lost && AllSafeShown(h))
                                          && (outcome == Playing ==> !h.disabled)
  {
    var lost;
    h, lost := Uncover(g, p, shuffled);
    if lost {
      outcome := Lost;
      return;
    }
    ghost var live := GameInv(g) && !g.disabled;
    if live {
      WinCheck(h);
    }
    if h.totCellShown >= h.rows * h.cols - h.totMines {
      var b := h;
      h, outcome := Win(b), Won;
      SameCellsSameWin(b, h);
      SameCellsSameReveals(g, b, h, p);
      assert Playable(g) ==> Playable(h);
    } else {
      outcome := Playing;
    }
  }

  /** A mouse click on cell `p`. A disabled board ignores every click; the
      middle button does nothing. `shuffled` is the order in which the
      mine candidates come out of the shuffle, used only when the click
      generates the board. */
  method Click(g: Grid, p: Pos, button: Button, shuffled: seq<Pos>) returns (h: Grid, outcome: Outcome)
    requires Shape(g) && InBounds(g, p)
    requires button == Primary && At(g, p).CanBeShown() && g.totCellShown == 0 ==> ValidShuffle(g, p, shuffled)
    ensures Shape(h) && SameSize(g, h)
    ensures g.disabled || button == Middle ==> h == g && outcome == Playing
    ensures !g.disabled && button == Secondary ==> h == Mark(g, p) && outcome == Playing
    ensures outcome == Lost ==> LostAt(h, p) && Detonated(g, h, p)
    ensures !g.disabled && button == Primary && SafeChord(g, p) ==> outcome != Lost
    ensures g.totCellShown != 0 ==> forall q :: InBounds(g, q) ==> At(h, q).IsMine() == At(g, q).IsMine()
    ensures outcome != Playing ==> h.disabled
    ensures !g.disabled && button == Primary && outcome != Lost ==> SafeReveal(g, h, p)
    ensures !g.disabled && button == Primary && Inert(g, p) ==>
              (h == g && outcome == Playing) || (h == Win(g) && outcome == Won)
    ensures GameInv(g) ==> GameInv(h)
    ensures GameInv(g) && outcome == Playing ==> h.disabled == g.disabled
    ensures GameInv(g) && !g.disabled && button == Primary ==>
              && (g.totCellShown == 0 ==> outcome != Lost)
              && (outcome == Won <==> outcome != Lost && AllSafeShown(h))
  {
    h, outcome := g, Playing;
    if g.disabled {
      return;
    }
    match button
    case Primary =>
      h, outcome := PrimaryClick(g, p, shuffled);
    case Secondary =>
      h := Mark(g, p);
      if GameInv(g) {
        MarkKeepsSettled(g, p);
      }
    case Middle =>
  }
}

=== FILE: display.dfy ===
/** The three-slot seven-segment counters of the control bar (mine score and
    time). A value is drawn as three slots, each dark, a digit or a minus
    sign; an index past the image table draws nothing. */
module Display {
  import opened Options

  datatype Slot = Off | Digit(d: int) | Minus | NoImage

  /** The digit-image lookup. The table holds the digits 0..9, then the dark
      image at index 10, then the minus sign at index 11; the lookup accepts
      every index below 11, so index 10 gives the dark image, and anything
      else gives no image at all. */
  function DigitImage(d: int): (s: Slot)
    ensures 0 <= d <= 9 <==> s.Digit?
    ensures s.Digit? ==> s.d == d
    ensures d == 10 <==> s == Off
    ensures (d < 0 || d > 10) <==> s == NoImage
    ensures s != Minus
  {
    if 0 <= d <= 9 then Digit(d) else if d == 10 then Off else NoImage
  }

  /** One entry of the digit array: negative entries mean a dark slot. */
  function SlotOf(entry: int): (s: Slot)
    ensures entry < 0 || entry == 10 <==> s == Off
    ensures entry >= 0 ==> s == DigitImage(entry)
  {
    if entry < 0 then Off else DigitImage(entry)
  }

  /** The counter drawn for `value`: the hundreds slot lights only above 99,
      the tens slot only above 9, the units slot always; then the minus sign
      overwrites all three slots below -99, the hundreds slot from -99 to -10
      and the tens slot from -9 to -1. */
  function DigitsView(value: int): (v: seq<Slot>)
    ensures |v| == 3
    ensures value < -99 ==> v == [Minus, Minus, Minus]
    ensures -99 <= value <= -10 ==> v == [Minus, Digit(-value / 10), Digit(-value % 10)]
    ensures -9 <= value <= -1 ==> v == [Off, Minus, Digit(-value)]
    ensures 0 <= value ==> v[2] == Digit(value % 10)
    ensures 9 < value ==> v[1] == Digit((value % 100) / 10)
    ensures 0 <= value ==> (v[1] != Off <==> value > 9)
    ensures 0 <= value <= 999 ==> (v[0] != Off <==> value > 99)
    ensures 0 <= value <= 999 ==> v[0] != Digit(0) && (v[0] == Off ==> v[1] != Digit(0))
    ensures 1000 <= value <= 1099 ==> v[0] == Off
    ensures value >= 1100 ==> v[0] == NoImage
  {
    var num := if value < 0 then -value else value;
    var digits := [if num > 99 then num / 100 else -1,
                   if num > 9 then (num % 100) / 10 else -1,
                   num % 10];
    var lit := [SlotOf(digits[0]), SlotOf(digits[1]), SlotOf(digits[2])];
    if value < -99 then [Minus, Minus, Minus]
    else if value < 0 then
      (if num > 9 then lit[0 := Minus]
       else if num > 0 then lit[1 := Minus]
       else lit)
    else lit
  }

  // ---------------------------------------------------------------------
  // Reading a counter back

  /** The number spelled by a run of digit slots, most significant first. */
  function DigitsValue(v: seq<Slot>): int
    requires forall i :: 0 <= i < |v| ==> v[i].Digit?
  {
    if |v| == 0 then 0 else DigitsValue(v[..|v| - 1]) * 10 + v[|v| - 1].d
  }

  /** A decimal numeral: one or more digits 0..9, no leading zero unless the
      numeral is a single digit. */
  predicate Numeral(v: seq<Slot>) {
    && |v| > 0
    && (forall i :: 0 <= i < |v| ==> v[i].Digit? && 0 <= v[i].d <= 9)
    && (|v| > 1 ==> v[0] != Digit(0))
  }

  /** What a person reads off a counter: dark slots first, then an optional
      minus sign and a numeral; a negative reading is never zero. Anything
      else, three minus signs included, reads as nothing. */
  function Reading(v: seq<Slot>): Option<int>
  {
    if |v| == 0 then None
    else if v[0] == Off then Reading(v[1..])
    else if v[0] == Minus then
      (if Numeral(v[1..]) && DigitsValue(v[1..]) > 0 then Some(-DigitsValue(v[1..])) else None)
    else if Numeral(v) then Some(DigitsValue(v))
    else None
  }

  /** Numerals of one, two and three digits spell their decimal value. */
  lemma OneDigit(a: int)
    requires 0 <= a <= 9
    ensures Numeral([Digit(a)]) && DigitsValue([Digit(a)]) == a
  {
    assert [Digit(a)][..0] == [];
  }

  lemma TwoDigits(a: int, b: int)
    requires 1 <= a <= 9 && 0 <= b <= 9
    ensures Numeral([Digit(a), Digit(b)]) && DigitsValue([Digit(a), Digit(b)]) == a * 10 + b
  {
    assert [Digit(a), Digit(b)][..1] == [Digit(a)];
    OneDigit(a);
  }

  lemma ThreeDigits(a: int, b: int, c: int)
    requires 1 <= a <= 9 && 0 <= b <= 9 && 0 <= c <= 9
    ensures Numeral([Digit(a), Digit(b), Digit(c)])
    ensures DigitsValue([Digit(a), Digit(b), Digit(c)]) == (a * 10 + b) * 10 + c
  {
    assert [Digit(a), Digit(b), Digit(c)][..2] == [Digit(a), Digit(b)];
    TwoDigits(a, b);
  }

  /** Every value from -99 to 999 is drawn so that it reads back as itself. */
  lemma ReadingRoundTrip(value: int)
    requires -99 <= value <= 999
    ensures Reading(DigitsView(value)) == Some(value)
  {
    if value < 0 {
      NegativeRoundTrip(value);
    } else {
      NaturalRoundTrip(value);
    }
  }

  lemma NegativeRoundTrip(value: int)
    requires -99 <= value <= -1
    ensures Reading(DigitsView(value)) == Some(value)
  {
    var v := DigitsView(value);
    var n := -value;
    if n > 9 {
      assert v[1..] == [Digit(n / 10), Digit(n % 10)];
      TwoDigits(n / 10, n % 10);
    } else {
      assert v[1..] == [Minus, Digit(n)];
      assert v[1..][1..] == [Digit(n)];
      OneDigit(n);
      assert Reading(v[1..]) == Some(value);
    }
  }

  lemma NaturalRoundTrip(value: int)
    requires 0 <= value <= 999
    ensures Reading(DigitsView(value)) == Some(value)
  {
    var v := DigitsView(value);
    if value <= 9 {
      assert v[1..] == [Off, Digit(value)];
      assert v[1..][1..] == [Digit(value)];
      OneDigit(value);
      assert Reading([Digit(value)]) == Some(value);
      assert Reading(v[1..]) == Some(value);
    } else if value <= 99 {
      assert v[1..] == [Digit(value / 10), Digit(value % 10)];
      TwoDigits(value / 10, value % 10);
      assert Reading(v[1..]) == Some(value);
    } else {
      assert v == [Digit(value / 100), Digit((value % 100) / 10), Digit(value % 10)];
      ThreeDigits(value / 100, (value % 100) / 10, value % 10);
    }
  }

  /** Two values in -99..999 that are drawn alike are equal. */
  lemma ViewInjective(a: int, b: int)
    requires -99 <= a <= 999 && -99 <= b <= 999
    requires DigitsView(a) == DigitsView(b)
    ensures a == b
  {
    ReadingRoundTrip(a);
    ReadingRoundTrip(b);
  }

  /** Below -99 the counter saturates: every such value is drawn alike and
      reads as nothing. */
  lemma SaturatedBelow(a: int, b: int)
    requires a < -99 && b < -99
    ensures DigitsView(a) == DigitsView(b)
    ensures Reading(DigitsView(a)) == None
  {
    var v := DigitsView(a);
    assert v[1..] == [Minus, Minus];
  }
}

=== FILE: ending.dfy ===
/** What the end of a game does to the board: on a loss the detonated cell
    becomes EXPLODED and every mine is shown; on a win and on a loss the
    board stops taking clicks. The timer, the face image and the alert
    dialog are not modelled. */
module Ending {
  import opened Options
  import opened Cells
  import opened Grids

  /** The loop body of the loss routine: a mine (live or exploded) is shown,
      any other cell is left as it is. */
  function ShowIfMine(c: Cell): (d: Cell)
    ensures d.kind == c.kind
    ensures c.IsMine() ==> d.IsShown()
    ensures !c.IsMine() ==> d == c
  {
    if c.IsMine() then c.Show() else c
  }

  /** The detonated cell, when there is one, tagged EXPLODED. */
  function Detonate(g: Grid, detonated: Option<Pos>): (h: Grid)
    requires Shape(g) && (detonated.Some? ==> InBounds(g, detonated.value))
    ensures Shape(h) && SameSize(g, h) && h.totCellShown == g.totCellShown && h.disabled == g.disabled
    ensures detonated.Some? ==> At(h, detonated.value) == At(g, detonated.value).(kind := Exploded)
    ensures forall q :: InBounds(g, q) && detonated != Some(q) ==> At(h, q) == At(g, q)
  {
    match detonated
    case None => g
    case Some(d) => Put(g, d, At(g, d).SetType(KindOrdinal(Exploded)))
  }

  /** The loss routine. `detonated` is the cell whose click lost the game,
      or `None` when the game is lost without one. */
  function Lose(g: Grid, detonated: Option<Pos>): (h: Grid)
    requires Shape(g) && (detonated.Some? ==> InBounds(g, detonated.value))
    ensures Shape(h) && SameSize(g, h) && h.totCellShown == g.totCellShown && h.disabled
    ensures detonated.Some? ==> At(h, detonated.value) == Cell(Exploded, Shown)
    ensures forall q :: InBounds(g, q) && detonated != Some(q) && At(g, q).IsMine() ==>
              At(h, q).kind == At(g, q).kind && At(h, q).IsShown()
    ensures forall q :: InBounds(g, q) && detonated != Some(q) && !At(g, q).IsMine() ==> At(h, q) == At(g, q)
  {
    var marked := Detonate(g, detonated);
    marked.(cells := seq(g.rows, r requires 0 <= r < g.rows =>
                        seq(g.cols, c requires 0 <= c < g.cols => ShowIfMine(marked.cells[r][c]))),
            disabled := true)
  }

  /** After a loss the mines are those of the board plus the detonated cell,
      and the revealed cells are the ones revealed before plus every mine. */
  lemma LoseReveals(g: Grid, detonated: Option<Pos>)
    requires Shape(g) && (detonated.Some? ==> InBounds(g, detonated.value))
    ensures var extra := if detonated.Some? then {detonated.value} else {};
            var h := Lose(g, detonated);
            && Mines(h) == Mines(g) + extra
            && ShownSet(h) == ShownSet(g) + Mines(h)
  {
    var h := Lose(g, detonated);
    PositionsMembers(g);
    PositionsMembers(h);
  }

  /** After a loss every mine of the board is visible. */
  lemma LoseShowsAllMines(g: Grid, detonated: Option<Pos>)
    requires Shape(g) && (detonated.Some? ==> InBounds(g, detonated.value))
    ensures var h := Lose(g, detonated);
            forall q :: InBounds(h, q) && At(h, q).IsMine() ==> At(h, q).IsShown()
  {
  }

  /** Detonating a mine keeps the set of mine cells. */
  lemma LoseKeepsMineCells(g: Grid, d: Pos)
    requires Shape(g) && InBounds(g, d) && At(g, d).IsMine()
    ensures var h := Lose(g, Some(d));
            forall q :: InBounds(g, q) ==> At(h, q).IsMine() == At(g, q).IsMine()
  {
  }

  /** The win routine: only the board's clicks are switched off. */
  function Win(g: Grid): (h: Grid)
    requires Shape(g)
    ensures Shape(h) && SameSize(g, h) && h.cells == g.cells && h.totCellShown == g.totCellShown
    ensures h.disabled
  {
    g.(disabled := true)
  }
}

=== FILE: flood.dfy ===
/** The flood fill that reveals the region around a cell whose count is zero:
    a stack of coordinates, popped one at a time; a popped cell that may be
    shown is revealed, and a cell tagged ZERO pushes every unrevealed cell of
    its block. One pass of the loop is a pure function of the board and the
    stack, so the loop as written can be stated and reasoned about step by
    step. */
module FloodFill {
  import opened Cells
  import opened Grids

  /** The state of the loop: the board and the stack (top at the end). */
  datatype Fill = Fill(grid: Grid, stack: seq<Pos>)

  predicate AllIn(g: Grid, s: seq<Pos>) {
    forall i :: 0 <= i < |s| ==> InBounds(g, s[i])
  }

  predicate Ready(f: Fill) {
    Shape(f.grid) && AllIn(f.grid, f.stack)
  }

  function Top(s: seq<Pos>): Pos
    requires s != []
  {
    s[|s| - 1]
  }

  function Pop(s: seq<Pos>): seq<Pos>
    requires s != []
  {
    s[..|s| - 1]
  }

  /** What the inner double loop pushes for `p`, from the k-th cell of the
      block on: every in-bounds cell not yet revealed, in row-major order. */
  function Pushes(g: Grid, p: Pos, k: int): (s: seq<Pos>)
    requires Shape(g) && 0 <= k <= 9
    ensures |s| <= 9 - k
    ensures forall q :: q in s ==> InBounds(g, q) && Adjacent(p, q) && !At(g, q).IsShown()
    ensures forall j :: k <= j < 9 && InBounds(g, Neighbour(p, j)) && !At(g, Neighbour(p, j)).IsShown()
                        ==> Neighbour(p, j) in s
    decreases 9 - k
  {
    if k == 9 then []
    else
      var q := Neighbour(p, k);
      (if InBounds(g, q) && !At(g, q).IsShown() then [q] else []) + Pushes(g, p, k + 1)
  }

  /** Every unrevealed cell of the block of `p` is pushed. */
  lemma PushesAll(g: Grid, p: Pos, q: Pos)
    requires Shape(g) && InBounds(g, q) && Adjacent(p, q) && !At(g, q).IsShown()
    ensures q in Pushes(g, p, 0)
  {
    var k := NeighbourOf(p, q);
  }

  lemma AllInPop(g: Grid, s: seq<Pos>)
    requires AllIn(g, s) && s != []
    ensures AllIn(g, Pop(s))
  {
    forall i | 0 <= i < |Pop(s)|
      ensures InBounds(g, Pop(s)[i])
    {
      assert Pop(s)[i] == s[i];
    }
  }

  lemma AllInAppend(g: Grid, a: seq<Pos>, b: seq<Pos>)
    requires AllIn(g, a) && AllIn(g, b)
    ensures AllIn(g, a + b)
  {
    forall i | 0 <= i < |a + b|
      ensures InBounds(g, (a + b)[i])
    {
      if i < |a| {
        assert (a + b)[i] == a[i];
      } else {
        assert (a + b)[i] == b[i - |a|];
      }
    }
  }

  /** The stack after popping the top and, if `expand`, pushing the
      unrevealed cells of its block on board `g`. */
  function Next(f: Fill, g: Grid, expand: bool): (r: Fill)
    requires Ready(f) && f.stack != [] && Shape(g) && SameSize(f.grid, g)
    ensures Ready(r) && r.grid == g
  {
    var rest := Pop(f.stack);
    var pushed := if expand then Pushes(g, Top(f.stack), 0) else [];
    assert AllIn(g, f.stack);
    AllInPop(g, f.stack);
    AllInAppend(g, rest, pushed);
    Fill(g, rest + pushed)
  }

  /** The board after the reveal half of a pass: the popped cell is shown if
      it may be. */
  function Revealed(f: Fill): (g: Grid)
    requires Ready(f) && f.stack != []
    ensures Shape(g) && SameSize(f.grid, g) && g.disabled == f.grid.disabled
    ensures At(f.grid, Top(f.stack)).CanBeShown() ==> g == Reveal(f.grid, Top(f.stack))
    ensures !At(f.grid, Top(f.stack)).CanBeShown() ==> g == f.grid
  {
    var p := Top(f.stack);
    if At(f.grid, p).CanBeShown() then Reveal(f.grid, p) else f.grid
  }

  /** One pass of the loop as written: the popped cell expands whenever its
      tag is ZERO, whatever its state. */
  function Step(f: Fill): (r: Fill)
    requires Ready(f) && f.stack != []
    ensures Ready(r) && SameSize(f.grid, r.grid)
  {
    Next(f, Revealed(f), At(f.grid, Top(f.stack)).kind == Near(0))
  }

  /** What one pass of the loop as written does: it reveals the popped cell
      if it is EMPTY and changes no other cell; the cells below the top stay
      on the stack; a popped cell not tagged ZERO pushes nothing, one tagged
      ZERO pushes every unrevealed cell of its block, and a marked ZERO cell
      pushes itself back. */
  lemma StepPass(f: Fill)
    requires Ready(f) && f.stack != []
    ensures Grows(f.grid, Step(f).grid) && CounterKept(f.grid, Step(f).grid)
    ensures forall q :: InBounds(f.grid, q) && q != Top(f.stack) ==> At(Step(f).grid, q) == At(f.grid, q)
    ensures At(f.grid, Top(f.stack)).state == Empty ==> At(Step(f).grid, Top(f.stack)).IsShown()
    ensures |f.stack| - 1 <= |Step(f).stack| && Step(f).stack[..|f.stack| - 1] == Pop(f.stack)
    ensures At(f.grid, Top(f.stack)).kind != Near(0) ==> Step(f).stack == Pop(f.stack)
    ensures At(f.grid, Top(f.stack)).kind == Near(0) ==>
              forall q :: InBounds(f.grid, q) && Adjacent(Top(f.stack), q) && !At(Step(f).grid, q).IsShown()
                          ==> q in Step(f).stack[|f.stack| - 1..]
    ensures MarkedZero(At(f.grid, Top(f.stack))) ==> Top(f.stack) in Step(f).stack[|f.stack| - 1..]
  {
    var g := Revealed(f);
    var p := Top(f.stack);
    var r := Step(f);
    StepGrows(f);
    var pushed := if At(f.grid, p).kind == Near(0) then Pushes(g, p, 0) else [];
    assert r.stack == Pop(f.stack) + pushed;
    assert r.stack[|f.stack| - 1..] == pushed;
    if At(f.grid, p).kind == Near(0) {
      forall q | InBounds(f.grid, q) && Adjacent(p, q) && !At(r.grid, q).IsShown()
        ensures q in pushed
      {
        PushesAll(g, p, q);
      }
    }
    if MarkedZero(At(f.grid, p)) {
      assert g == f.grid;
      PushesAll(g, p, p);
    }
  }

  /** One pass of the corrected loop: the popped cell expands only when it is
      revealed after the pass, so a flagged or questioned ZERO cell is
      dropped like any other marked cell. */
  function FixedStep(f: Fill): (r: Fill)
    requires Ready(f) && f.stack != []
    ensures Ready(r) && SameSize(f.grid, r.grid)
  {
    var g := Revealed(f);
    Next(f, g, At(g, Top(f.stack)).IsShown() && At(f.grid, Top(f.stack)).kind == Near(0))
  }

  /** At most `n` passes of the loop as written; it stops once the stack is
      empty. */
  function Run(f: Fill, n: nat): (r: Fill)
    requires Ready(f)
    ensures Ready(r) && SameSize(f.grid, r.grid)
    decreases n
  {
    if n == 0 || f.stack == [] then f else Run(Step(f), n - 1)
  }

  /** However many passes of the loop as written run, they only turn EMPTY
      cells into revealed ones, never touching a mark or a tag, and the
      counter follows the revealed cells. */
  lemma {:induction false} RunGrows(f: Fill, n: nat)
    requires Ready(f)
    ensures Grows(f.grid, Run(f, n).grid) && CounterKept(f.grid, Run(f, n).grid)
    decreases n
  {
    if n > 0 && f.stack != [] {
      StepPass(f);
      RunGrows(Step(f), n - 1);
      GrowsTrans(f.grid, Step(f).grid, Run(f, n).grid);
    }
  }

  function FixedRun(f: Fill, n: nat): (r: Fill)
    requires Ready(f)
    ensures Ready(r) && SameSize(f.grid, r.grid)
    decreases n
  {
    if n == 0 || f.stack == [] then f else FixedRun(FixedStep(f), n - 1)
  }

  lemma {:induction false} FixedRunNext(f: Fill, n: nat)
    requires Ready(f) && FixedRun(f, n).stack != []
    ensures FixedRun(f, n + 1) == FixedStep(FixedRun(f, n))
    decreases n
  {
    if n > 0 {
      FixedRunNext(FixedStep(f), n - 1);
    }
  }

  // ---------------------------------------------------------------------
  // The loop as written does not terminate on a marked ZERO cell

  /** A cell tagged ZERO that carries a flag or a question mark. */
  predicate MarkedZero(c: Cell) {
    (c.IsFlag() || c.IsQuestionMark()) && c.kind == Near(0)
  }

  ghost predicate NoMarkedZero(g: Grid)
    requires Shape(g)
  {
    forall q :: InBounds(g, q) ==> !MarkedZero(At(g, q))
  }

  /** A marked ZERO cell `x` sits on the stack. */
  ghost predicate Trapped(f: Fill, x: Pos) {
    Ready(f) && InBounds(f.grid, x) && x in f.stack && MarkedZero(At(f.grid, x))
  }

  /** A pass keeps a trapped cell on the stack: popping it pushes it again,
      since it is in its own block and is not revealed. */
  lemma StepKeepsTrapped(f: Fill, x: Pos)
    requires Trapped(f, x)
    ensures f.stack != [] && Trapped(Step(f), x)
  {
    var p := Top(f.stack);
    var g := Revealed(f);
    if p == x {
      assert g == f.grid;
      PushesAll(g, x, x);
    } else {
      var i :| 0 <= i < |f.stack| && f.stack[i] == x;
      assert i < |f.stack| - 1;
      assert Pop(f.stack)[i] == x;
    }
  }

  /** Once a marked ZERO cell is on the stack, the stack is never empty
      again, however many passes run. */
  lemma {:induction false} TrappedRunsForever(f: Fill, x: Pos, n: nat)
    requires Trapped(f, x)
    ensures Trapped(Run(f, n), x) && Run(f, n).stack != []
    decreases n
  {
    if n > 0 {
      StepKeepsTrapped(f, x);
      TrappedRunsForever(Step(f), x, n - 1);
    }
  }

  /** Revealing a ZERO cell next to a marked ZERO cell traps the latter. */
  lemma ZeroNextToMarkedZero(f: Fill, x: Pos)
    requires Ready(f) && f.stack != []
    requires At(f.grid, Top(f.stack)).kind == Near(0)
    requires InBounds(f.grid, x) && x != Top(f.stack) && Adjacent(Top(f.stack), x)
    requires MarkedZero(At(f.grid, x))
    ensures Trapped(Step(f), x)
  {
    var g := Revealed(f);
    assert At(g, x) == At(f.grid, x);
    PushesAll(g, Top(f.stack), x);
  }

  /** A fill started on an EMPTY ZERO cell next to a marked ZERO cell never
      empties its stack: the start is revealed and pushes its neighbour,
      which then pushes itself on every pass. */
  lemma MarkedNeighbourHangs(g: Grid, p: Pos, x: Pos, n: nat)
    requires Shape(g) && InBounds(g, p) && InBounds(g, x) && p != x && Adjacent(p, x)
    requires At(g, p) == Cell(Near(0), Empty) && MarkedZero(At(g, x))
    ensures Run(Fill(g, [p]), n).stack != []
  {
    StartTraps(g, p, x);
    RunStartsTrapped(Fill(g, [p]), x, n);
  }

  /** A fill whose first pass traps a marked ZERO cell never empties its
      stack. */
  lemma {:induction false} RunStartsTrapped(f: Fill, x: Pos, n: nat)
    requires Ready(f) && f.stack != [] && Trapped(Step(f), x)
    ensures Run(f, n).stack != []
    decreases n
  {
    if n > 0 {
      StepKeepsTrapped(Step(f), x);
      RunStartsTrapped(Step(f), x, n - 1);
    }
  }

  /** The first pass from an EMPTY ZERO cell pushes its marked ZERO
      neighbour. */
  lemma StartTraps(g: Grid, p: Pos, x: Pos)
    requires Shape(g) && InBounds(g, p) && InBounds(g, x) && p != x && Adjacent(p, x)
    requires At(g, p) == Cell(Near(0), Empty) && MarkedZero(At(g, x))
    ensures Ready(Fill(g, [p])) && Trapped(Step(Fill(g, [p])), x)
  {
    var f := Fill(g, [p]);
    assert Ready(f);
    ZeroNextToMarkedZero(f, x);
  }

  /** A 1 x 2 board: clicking the left cell, tagged ZERO, reveals it and
      pushes its flagged ZERO neighbour, which then pushes itself for
      ever. */
  const HangingBoard := Grid(1, 2, [[Cell(Near(0), Empty), Cell(Near(0), Flag)]], 1, 0, false)

  lemma FlaggedZeroHangs()
    ensures forall n: nat :: Run(Fill(HangingBoard, [Pos(0, 0)]), n).stack != []
  {
    forall n: nat
      ensures Run(Fill(HangingBoard, [Pos(0, 0)]), n).stack != []
    {
      MarkedNeighbourHangs(HangingBoard, Pos(0, 0), Pos(0, 1), n);
    }
  }

  /** Without marked ZERO cells the two loops take the same passes. */
  lemma StepAgrees(f: Fill)
    requires Ready(f) && f.stack != [] && NoMarkedZero(f.grid)
    ensures Step(f) == FixedStep(f) && NoMarkedZero(Step(f).grid)
  {
    var g := Revealed(f);
    assert forall q :: InBounds(g, q) ==> At(g, q).kind == At(f.grid, q).kind;
    assert forall q :: InBounds(g, q) && At(g, q).state != At(f.grid, q).state ==> At(g, q).IsShown();
  }

  lemma {:induction false} RunsAgree(f: Fill, n: nat)
    requires Ready(f) && NoMarkedZero(f.grid)
    ensures Run(f, n) == FixedRun(f, n)
    decreases n
  {
    if n > 0 && f.stack != [] {
      StepAgrees(f);
      RunsAgree(Step(f), n - 1);
    }
  }

  // ---------------------------------------------------------------------
  // The corrected loop terminates and reveals a closed region

  lemma PopMembers(s: seq<Pos>)
    requires s != []
    ensures forall x :: x in s <==> x in Pop(s) || x == Top(s)
  {
    assert s == Pop(s) + [Top(s)];
  }

  /** `h` is `g` with some EMPTY cells revealed and nothing else changed. */
  ghost predicate Grows(g: Grid, h: Grid)
    requires Shape(g)
  {
    && Shape(h) && SameSize(g, h) && h.disabled == g.disabled
    && forall q :: InBounds(g, q) ==>
         At(h, q) == At(g, q) || (At(g, q).state == Empty && At(h, q) == At(g, q).Show())
  }

  lemma GrowsTrans(a: Grid, b: Grid, c: Grid)
    requires Shape(a) && Grows(a, b) && Grows(b, c)
    ensures Grows(a, c)
  {
  }

  /** The running count moved by exactly the number of cells revealed. */
  ghost predicate CounterKept(g: Grid, h: Grid)
    requires Shape(g) && Shape(h)
  {
    h.totCellShown - |ShownSet(h)| == g.totCellShown - |ShownSet(g)|
  }

  /** A cell hidden in `g` and revealed in `h`. */
  ghost predicate Newly(g: Grid, h: Grid, q: Pos)
    requires Shape(g) && Grows(g, h)
  {
    InBounds(g, q) && !At(g, q).IsShown() && At(h, q).IsShown()
  }

  /** A revealed ZERO cell the fill has expanded: one it revealed itself, or
      the start cell once the first pass has run. */
  ghost predicate Expanded(g: Grid, h: Grid, start: Pos, begun: bool, e: Pos)
    requires Shape(g) && Grows(g, h)
  {
    && InBounds(g, e) && At(h, e).IsShown() && At(h, e).kind == Near(0)
    && (!At(g, e).IsShown() || (begun && e == start))
  }

  /** The start cell, or a cell next to an expanded one. */
  ghost predicate Sourced(g: Grid, h: Grid, start: Pos, begun: bool, q: Pos)
    requires Shape(g) && Grows(g, h)
  {
    q == start || exists e :: Expanded(g, h, start, begun, e) && Adjacent(e, q)
  }

  /** `s` is a walk through neighbouring cells along which a fill travels
      from its first cell to its last: every cell after the first was hidden
      on `g`, and every cell before the last is a ZERO cell revealed on `h`. */
  ghost predicate Chain(g: Grid, h: Grid, s: seq<Pos>)
    requires Shape(g) && Shape(h) && SameSize(g, h)
  {
    && s != []
    && (forall i :: 0 <= i < |s| ==> InBounds(g, s[i]))
    && (forall i :: 0 < i < |s| ==> !At(g, s[i]).IsShown())
    && (forall i :: 0 <= i < |s| - 1 ==> At(h, s[i]).IsShown() && At(h, s[i]).kind == Near(0))
    && (forall i :: 0 < i < |s| ==> Adjacent(s[i - 1], s[i]))
  }

  /** `q` is joined to `start` by a chain. */
  ghost predicate Linked(g: Grid, h: Grid, start: Pos, q: Pos)
    requires Shape(g) && Shape(h) && SameSize(g, h)
  {
    exists s :: Chain(g, h, s) && s[0] == start && s[|s| - 1] == q
  }

  /** A cell is joined to itself by the chain of that cell alone. */
  lemma LinkedSelf(g: Grid, h: Grid, q: Pos)
    requires Shape(g) && Shape(h) && SameSize(g, h) && InBounds(g, q)
    ensures Linked(g, h, q, q)
  {
    assert Chain(g, h, [q]);
  }

  /** A chain goes on through a hidden neighbour of its last cell once that
      cell is a revealed ZERO cell. */
  lemma LinkedStep(g: Grid, h: Grid, start: Pos, p: Pos, x: Pos)
    requires Shape(g) && Shape(h) && SameSize(g, h) && Linked(g, h, start, p)
    requires At(h, p).IsShown() && At(h, p).kind == Near(0)
    requires InBounds(g, x) && Adjacent(p, x) && !At(g, x).IsShown()
    ensures Linked(g, h, start, x)
  {
    var s :| Chain(g, h, s) && s[0] == start && s[|s| - 1] == p;
    var t := s + [x];
    assert forall i :: 0 <= i < |s| ==> t[i] == s[i];
    assert Chain(g, h, t);
  }

  /** Revealing more cells keeps every chain. */
  lemma LinkedLater(g: Grid, h: Grid, h2: Grid, start: Pos, q: Pos)
    requires Shape(g) && Shape(h) && SameSize(g, h) && Grows(h, h2) && Linked(g, h, start, q)
    ensures Linked(g, h2, start, q)
  {
    var s :| Chain(g, h, s) && s[0] == start && s[|s| - 1] == q;
    assert Chain(g, h2, s);
  }

  /** A chain over cells hidden on `g` is one over cells hidden on any
      board that reveals no more than `g`. */
  lemma LinkedEarlier(g0: Grid, g: Grid, h: Grid, start: Pos, q: Pos)
    requires Shape(g0) && Shape(g) && SameSize(g0, g) && Shape(h) && SameSize(g, h)
    requires forall x :: InBounds(g0, x) && At(g0, x).IsShown() ==> At(g, x).IsShown()
    requires Linked(g, h, start, q)
    ensures Linked(g0, h, start, q)
  {
    var s :| Chain(g, h, s) && s[0] == start && s[|s| - 1] == q;
    assert Chain(g0, h, s);
  }

  /** Every cell on the stack is the start cell or was hidden at the outset. */
  ghost predicate StackHidden(g: Grid, start: Pos, f: Fill)
    requires Shape(g)
  {
    forall x :: x in f.stack ==> x == start || (InBounds(g, x) && !At(g, x).IsShown())
  }

  /** Every EMPTY cell next to an expanded one is still on the stack. */
  ghost predicate Closed(g: Grid, start: Pos, begun: bool, f: Fill)
    requires Shape(g) && Grows(g, f.grid)
  {
    forall e, n ::
      (Expanded(g, f.grid, start, begun, e) && InBounds(g, n) && Adjacent(e, n) && At(f.grid, n).state == Empty)
      ==> n in f.stack
  }

  /** Everything on the stack and everything revealed so far was reached
      from the start cell. */
  ghost predicate AllSourced(g: Grid, start: Pos, begun: bool, f: Fill)
    requires Shape(g) && Grows(g, f.grid)
  {
    && (forall x :: x in f.stack ==> Sourced(g, f.grid, start, begun, x))
    && (forall q :: Newly(g, f.grid, q) ==> Sourced(g, f.grid, start, begun, q))
  }

  /** Everything on the stack and everything revealed so far is joined to
      the start cell by a chain. */
  ghost predicate AllLinked(g: Grid, start: Pos, f: Fill)
    requires Shape(g) && Grows(g, f.grid)
  {
    && (forall x :: x in f.stack ==> Linked(g, f.grid, start, x))
    && (forall q :: Newly(g, f.grid, q) ==> Linked(g, f.grid, start, q))
  }

  /** Nothing on the stack and nothing revealed so far is a mine. */
  ghost predicate NoMineReached(g: Grid, f: Fill)
    requires Shape(g) && Grows(g, f.grid)
  {
    && (forall x :: x in f.stack ==> InBounds(g, x) && !At(g, x).IsMine())
    && (forall q :: Newly(g, f.grid, q) ==> !At(g, q).IsMine())
  }

  /** The loop invariant of the corrected fill started at `start` on `g`. */
  ghost predicate FillInv(g: Grid, start: Pos, begun: bool, f: Fill)
    requires Shape(g) && InBounds(g, start)
  {
    && Ready(f) && Grows(g, f.grid) && CounterKept(g, f.grid)
    && (!begun ==> f == Fill(g, [start]))
    && (begun && At(g, start).state == Empty ==> At(f.grid, start).IsShown())
    && StackHidden(g, start, f)
    && Closed(g, start, begun, f)
    && AllSourced(g, start, begun, f)
    && AllLinked(g, start, f)
    && (ZeroSafe(g) && !At(g, start).IsMine() ==> NoMineReached(g, f))
  }

  lemma StepGrows(f: Fill)
    requires Ready(f) && f.stack != []
    ensures Grows(f.grid, FixedStep(f).grid) && CounterKept(f.grid, FixedStep(f).grid)
    ensures forall q :: InBounds(f.grid, q) && q != Top(f.stack) ==> At(FixedStep(f).grid, q) == At(f.grid, q)
    ensures At(f.grid, Top(f.stack)).state == Empty ==> At(FixedStep(f).grid, Top(f.stack)).IsShown()
    ensures Unshown(FixedStep(f).grid) <= Unshown(f.grid)
  {
    var p := Top(f.stack);
    if At(f.grid, p).CanBeShown() {
      RevealSets(f.grid, p);
    }
  }

  lemma SourcedMono(g: Grid, h: Grid, h2: Grid, start: Pos, b: bool, b2: bool, q: Pos)
    requires Shape(g) && Grows(g, h) && Grows(h, h2) && Grows(g, h2) && (b ==> b2)
    requires Sourced(g, h, start, b, q)
    ensures Sourced(g, h2, start, b2, q)
  {
    if q != start {
      var e :| Expanded(g, h, start, b, e) && Adjacent(e, q);
      assert Expanded(g, h2, start, b2, e);
    }
  }

  lemma StepKeepsHidden(g: Grid, start: Pos, begun: bool, f: Fill)
    requires Shape(g) && Ready(f) && f.stack != [] && Grows(g, f.grid) && StackHidden(g, start, f)
    requires Grows(g, FixedStep(f).grid)
    ensures StackHidden(g, start, FixedStep(f))
  {
    StepGrows(f);
    PopMembers(f.stack);
  }

  lemma StepKeepsClosed(g: Grid, start: Pos, begun: bool, f: Fill)
    requires Shape(g) && Ready(f) && f.stack != [] && Grows(g, f.grid)
    requires (!begun ==> f == Fill(g, [start])) && Closed(g, start, begun, f)
    requires Grows(g, FixedStep(f).grid)
    ensures Closed(g, start, true, FixedStep(f))
  {
    var p, h, f2 := Top(f.stack), f.grid, FixedStep(f);
    StepGrows(f);
    PopMembers(f.stack);
    forall e, n | Expanded(g, f2.grid, start, true, e) && InBounds(g, n) && Adjacent(e, n)
                  && At(f2.grid, n).state == Empty
      ensures n in f2.stack
    {
      if e == p {
        PushesAll(f2.grid, p, n);
      } else if begun {
        assert Expanded(g, h, start, begun, e);
        assert n in f.stack && n != p;
      } else {
        assert false;
      }
    }
  }

  lemma StepKeepsSourced(g: Grid, start: Pos, begun: bool, f: Fill)
    requires Shape(g) && Ready(f) && f.stack != [] && Grows(g, f.grid)
    requires (!begun ==> f == Fill(g, [start])) && StackHidden(g, start, f) && AllSourced(g, start, begun, f)
    requires Grows(g, FixedStep(f).grid)
    ensures AllSourced(g, start, true, FixedStep(f))
  {
    var p, h, f2 := Top(f.stack), f.grid, FixedStep(f);
    StepGrows(f);
    PopMembers(f.stack);
    SourcedMono(g, h, f2.grid, start, begun, true, p);
    forall x | x in f2.stack
      ensures Sourced(g, f2.grid, start, true, x)
    {
      if x in Pop(f.stack) {
        SourcedMono(g, h, f2.grid, start, begun, true, x);
      } else {
        assert Expanded(g, f2.grid, start, true, p) && Adjacent(p, x);
      }
    }
    forall q | Newly(g, f2.grid, q)
      ensures Sourced(g, f2.grid, start, true, q)
    {
      if q != p {
        SourcedMono(g, h, f2.grid, start, begun, true, q);
      }
    }
  }

  lemma StepKeepsLinked(g: Grid, start: Pos, f: Fill)
    requires Shape(g) && Ready(f) && f.stack != [] && Grows(g, f.grid) && AllLinked(g, start, f)
    requires Grows(g, FixedStep(f).grid)
    ensures AllLinked(g, start, FixedStep(f))
  {
    var p, h, f2 := Top(f.stack), f.grid, FixedStep(f);
    var r := Revealed(f);
    var expand := At(r, p).IsShown() && At(h, p).kind == Near(0);
    var pushed := if expand then Pushes(r, p, 0) else [];
    assert f2 == Fill(r, Pop(f.stack) + pushed);
    StepGrows(f);
    PopMembers(f.stack);
    LinkedLater(g, h, r, start, p);
    if expand {
      PushedLinked(g, r, start, p);
    }
    forall x | x in f2.stack
      ensures Linked(g, r, start, x)
    {
      if x in Pop(f.stack) {
        LinkedLater(g, h, r, start, x);
      } else {
        assert x in pushed;
      }
    }
    forall q | Newly(g, r, q)
      ensures Linked(g, r, start, q)
    {
      if q != p {
        assert At(r, q) == At(h, q);
        assert Newly(g, h, q);
        LinkedLater(g, h, r, start, q);
      }
    }
  }

  /** Every cell an expanded cell pushes is joined to the start. */
  lemma PushedLinked(g: Grid, r: Grid, start: Pos, p: Pos)
    requires Shape(g) && Grows(g, r) && Linked(g, r, start, p)
    requires At(r, p).IsShown() && At(r, p).kind == Near(0)
    ensures forall x :: x in Pushes(r, p, 0) ==> Linked(g, r, start, x)
  {
    forall x | x in Pushes(r, p, 0)
      ensures Linked(g, r, start, x)
    {
      assert !At(g, x).IsShown();
      LinkedStep(g, r, start, p, x);
    }
  }

  lemma StepKeepsSafe(g: Grid, start: Pos, begun: bool, f: Fill)
    requires Shape(g) && InBounds(g, start) && Ready(f) && f.stack != [] && Grows(g, f.grid)
    requires NoMineReached(g, f)
    requires Grows(g, FixedStep(f).grid)
    requires ZeroSafe(g) && !At(g, start).IsMine()
    ensures NoMineReached(g, FixedStep(f))
  {
    var p, h, f2 := Top(f.stack), f.grid, FixedStep(f);
    StepGrows(f);
    PopMembers(f.stack);
    forall x | x in f2.stack
      ensures InBounds(g, x) && !At(g, x).IsMine()
    {
      if x !in Pop(f.stack) {
        assert Adjacent(p, x) && At(g, p).kind == Near(0);
      }
    }
    forall q | Newly(g, f2.grid, q)
      ensures !At(g, q).IsMine()
    {
      if q != p {
        assert Newly(g, h, q);
      }
    }
  }

  /** One pass of the corrected loop keeps the invariant. */
  lemma StepKeepsInv(g: Grid, start: Pos, begun: bool, f: Fill)
    requires Shape(g) && InBounds(g, start) && FillInv(g, start, begun, f) && f.stack != []
    ensures FillInv(g, start, true, FixedStep(f))
  {
    var f2 := FixedStep(f);
    StepGrows(f);
    GrowsTrans(g, f.grid, f2.grid);
    StepKeepsHidden(g, start, begun, f);
    StepKeepsClosed(g, start, begun, f);
    StepKeepsSourced(g, start, begun, f);
    StepKeepsLinked(g, start, f);
    if ZeroSafe(g) && !At(g, start).IsMine() {
      StepKeepsSafe(g, start, begun, f);
    }
  }

  /** What the invariant gives once the stack is empty. */
  lemma FillDone(g: Grid, start: Pos, f: Fill)
    requires Shape(g) && InBounds(g, start) && FillInv(g, start, true, f) && f.stack == []
    ensures forall e, n :: Expanded(g, f.grid, start, true, e) && InBounds(g, n) && Adjacent(e, n)
                           ==> At(f.grid, n).state != Empty
    ensures forall q :: Newly(g, f.grid, q) ==> Sourced(g, f.grid, start, true, q)
    ensures forall q :: Newly(g, f.grid, q) ==> Linked(g, f.grid, start, q)
    ensures ZeroSafe(g) && !At(g, start).IsMine() ==> forall q :: Newly(g, f.grid, q) ==> !At(f.grid, q).IsMine()
  {
  }

  /** The termination measure's second part: a revealed cell on the stack
      weighs more than the at most nine hidden cells it can push. */
  ghost function Weight(g: Grid, s: seq<Pos>): nat
    requires Shape(g) && AllIn(g, s)
    decreases |s|
  {
    if s == [] then 0
    else
      AllInPop(g, s);
      Weight(g, Pop(s)) + (if At(g, Top(s)).IsShown() then 10 else 1)
  }

  lemma {:induction false} WeightAppend(g: Grid, a: seq<Pos>, b: seq<Pos>)
    requires Shape(g) && AllIn(g, a) && AllIn(g, b)
    ensures AllIn(g, a + b) && Weight(g, a + b) == Weight(g, a) + Weight(g, b)
    decreases |b|
  {
    AllInAppend(g, a, b);
    if b == [] {
      assert a + b == a;
    } else {
      assert Pop(a + b) == a + Pop(b);
      assert Top(a + b) == Top(b);
      AllInPop(g, b);
      WeightAppend(g, a, Pop(b));
    }
  }

  lemma {:induction false} WeightHidden(g: Grid, s: seq<Pos>)
    requires Shape(g) && AllIn(g, s)
    requires forall x :: x in s ==> !At(g, x).IsShown()
    ensures Weight(g, s) == |s|
    decreases |s|
  {
    if s != [] {
      AllInPop(g, s);
      PopMembers(s);
      WeightHidden(g, Pop(s));
    }
  }

  /** Every pass either reveals a cell or lightens the stack. */
  lemma StepDecreases(f: Fill)
    requires Ready(f) && f.stack != []
    ensures var f2 := FixedStep(f);
            || Unshown(f2.grid) < Unshown(f.grid)
            || (Unshown(f2.grid) == Unshown(f.grid) && Weight(f2.grid, f2.stack) < Weight(f.grid, f.stack))
  {
    var p, h := Top(f.stack), f.grid;
    if At(h, p).CanBeShown() {
      RevealSets(h, p);
    } else {
      StackLightens(f);
    }
  }

  /** A pass that reveals nothing trades its top for at most nine hidden
      cells, and only when the top is revealed. */
  lemma StackLightens(f: Fill)
    requires Ready(f) && f.stack != [] && !At(f.grid, Top(f.stack)).CanBeShown()
    ensures FixedStep(f).grid == f.grid && Weight(f.grid, FixedStep(f).stack) < Weight(f.grid, f.stack)
  {
    var p, h, f2 := Top(f.stack), f.grid, FixedStep(f);
    var rest := Pop(f.stack);
    var expand := At(h, p).IsShown() && At(h, p).kind == Near(0);
    var pushed := if expand then Pushes(h, p, 0) else [];
    assert f2 == Fill(h, rest + pushed);
    AllInPop(h, f.stack);
    WeightAppend(h, rest, pushed);
    WeightHidden(h, pushed);
  }

  /** The flood fill, with the corrected pass. It stops, only ever reveals
      EMPTY cells, keeps the running count in step, reveals the start cell
      if it may be shown, leaves no EMPTY cell next to an expanded ZERO cell,
      reveals only cells next to an expanded one and joined to the start by
      a chain of revealed ZERO cells, and never reveals a mine
      when the numbers are right and the start cell is safe. It does what
      the loop as written does whenever no ZERO cell is marked. */
  method Propagate(g: Grid, start: Pos) returns (h: Grid, ghost steps: nat)
    requires Shape(g) && InBounds(g, start)
    ensures Grows(g, h) && CounterKept(g, h)
    ensures FixedRun(Fill(g, [start]), steps) == Fill(h, [])
    ensures NoMarkedZero(g) ==> Run(Fill(g, [start]), steps) == Fill(h, [])
    ensures At(g, start).state == Empty ==> At(h, start).IsShown()
    ensures forall e, n :: Expanded(g, h, start, true, e) && InBounds(g, n) && Adjacent(e, n)
                           ==> At(h, n).state != Empty
    ensures forall q :: Newly(g, h, q) ==> Sourced(g, h, start, true, q)
    ensures forall q :: Newly(g, h, q) ==> Linked(g, h, start, q)
    ensures ZeroSafe(g) && !At(g, start).IsMine() ==> forall q :: Newly(g, h, q) ==> !At(h, q).IsMine()
  {
    var init := Fill(g, [start]);
    LinkedSelf(g, g, start);
    FixedRunNext(init, 0);
    StepKeepsInv(g, start, false, init);
    var f := FixedStep(init);
    steps := 1;
    while f.stack != []
      invariant FillInv(g, start, true, f)
      invariant FixedRun(init, steps) == f
      decreases Unshown(f.grid), Weight(f.grid, f.stack)
    {
      FixedRunNext(init, steps);
      StepKeepsInv(g, start, true, f);
      StepDecreases(f);
      f := FixedStep(f);
      steps := steps + 1;
    }
    h := f.grid;
    FillDone(g, start, f);
    if NoMarkedZero(g) {
      RunsAgree(init, steps);
    }
  }
}

=== FILE: game.dfy ===
/** The game as the board plus the mine score shown in the control bar. The
    timer, the face button and the dialogs are not modelled. */
module Games {
  import opened Options
  import opened Grids
  import opened Display

  /** The board, the score (mines left to flag) and the score counter as
      drawn. */
  datatype Game = Game(grid: Grid, score: int, scoreView: seq<Slot>)

  /** The score restarts at the board's mine count and is redrawn. */
  function ResetScore(game: Game): (r: Game)
    ensures r.grid == game.grid && r.score == game.grid.totMines
    ensures -99 <= r.score <= 999 ==> Reading(r.scoreView) == Some(r.score)
    ensures |r.scoreView| == 3
  {
    var score := game.grid.totMines;
    var r := game.(score := score, scoreView := DigitsView(score));
    assert -99 <= score <= 999 ==> Reading(r.scoreView) == Some(score) by {
      if -99 <= score <= 999 {
        ReadingRoundTrip(score);
      }
    }
    r
  }

  /** A new game on the same board: the board is reset, then the score. */
  function Reset(game: Game): (r: Game)
    requires Shape(game.grid)
    ensures Shape(r.grid) && SameSize(game.grid, r.grid) && Pristine(r.grid)
    ensures r.score == game.grid.totMines
    ensures -99 <= r.score <= 999 ==> Reading(r.scoreView) == Some(r.score)
  {
    ResetScore(game.(grid := Grids.Reset(game.grid)))
  }

  /** A new game on a board of playable size is ready for play, and a second
      reset changes nothing. */
  lemma ResetStartsPlay(game: Game)
    requires Playable(game.grid)
    ensures GameInv(Reset(game).grid)
    ensures Reset(Reset(game)) == Reset(game)
  {
    var g := Reset(game).grid;
    assert ShownSet(g) == {};
  }
}

=== FILE: generation.dfy ===
/** Deferred board generation, run on the first reveal: mines are placed
    outside the 3x3 block of the clicked cell, then every other cell gets the
    number of mines in its block. The shuffle of the candidate list is not
    modelled; its outcome is a parameter that must be a permutation of the
    list. */
module Generation {
  import opened Cells
  import opened Grids
  import opened Seqs

  // ---------------------------------------------------------------------
  // The candidate list of PlaceMines

  /** Row `r`, from column `c` on: the cells outside the block of `p`, in
      column order. */
  function RowCandidates(cols: int, p: Pos, r: int, c: int): seq<Pos>
    decreases cols - c
  {
    if c >= cols then []
    else (if Adjacent(p, Pos(r, c)) then [] else [Pos(r, c)]) + RowCandidates(cols, p, r, c + 1)
  }

  /** Rows `r` .. rows-1: the cells outside the block of `p`, row by row. */
  function CandidatesFrom(rows: int, cols: int, p: Pos, r: int): seq<Pos>
    decreases rows - r
  {
    if r >= rows then []
    else RowCandidates(cols, p, r, 0) + CandidatesFrom(rows, cols, p, r + 1)
  }

  /** The list PlaceMines builds before shuffling it. */
  function Candidates(g: Grid, p: Pos): seq<Pos> {
    CandidatesFrom(g.rows, g.cols, p, 0)
  }

  lemma {:induction false} RowCandidatesFacts(cols: int, p: Pos, r: int, c: int)
    ensures forall q :: q in RowCandidates(cols, p, r, c) <==> q.row == r && c <= q.col < cols && !Adjacent(p, q)
    ensures NoDuplicates(RowCandidates(cols, p, r, c))
    decreases cols - c
  {
    if c < cols {
      RowCandidatesFacts(cols, p, r, c + 1);
      var head := if Adjacent(p, Pos(r, c)) then [] else [Pos(r, c)];
      assert NoDuplicates(head) by {
        if head != [] {
          forall x
            ensures multiset(head)[x] <= 1
          {
            assert multiset(head) == multiset{Pos(r, c)};
          }
        }
      }
      AppendNoDuplicates(head, RowCandidates(cols, p, r, c + 1));
    }
  }

  lemma {:induction false} CandidatesFromFacts(rows: int, cols: int, p: Pos, r: int)
    ensures forall q :: q in CandidatesFrom(rows, cols, p, r)
                        <==> r <= q.row < rows && 0 <= q.col < cols && !Adjacent(p, q)
    ensures NoDuplicates(CandidatesFrom(rows, cols, p, r))
    decreases rows - r
  {
    if r < rows {
      RowCandidatesFacts(cols, p, r, 0);
      CandidatesFromFacts(rows, cols, p, r + 1);
      AppendNoDuplicates(RowCandidates(cols, p, r, 0), CandidatesFrom(rows, cols, p, r + 1));
    }
  }

  /** The candidates are exactly the cells of the board outside the block of
      `p`, each listed once, and there are at least rows*cols - 9 of them. */
  lemma CandidatesFacts(g: Grid, p: Pos)
    ensures forall q :: q in Candidates(g, p) <==> InBounds(g, q) && !Adjacent(p, q)
    ensures NoDuplicates(Candidates(g, p))
    ensures g.rows >= 0 && g.cols >= 0 ==> |Candidates(g, p)| >= g.rows * g.cols - 9
  {
    CandidatesFromFacts(g.rows, g.cols, p, 0);
    if g.rows >= 0 && g.cols >= 0 {
      CandidatesCount(g, p);
    }
  }

  /** Counting half of CandidatesFacts: a repeat-free list of the board's
      cells outside a block of at most nine misses at most nine cells. */
  lemma CandidatesCount(g: Grid, p: Pos)
    requires g.rows >= 0 && g.cols >= 0
    requires forall q :: q in Candidates(g, p) <==> InBounds(g, q) && !Adjacent(p, q)
    requires NoDuplicates(Candidates(g, p))
    ensures |Candidates(g, p)| >= g.rows * g.cols - 9
  {
    var cands := Candidates(g, p);
    var all := Positions(g);
    DistinctCard(cands);
    assert Elements(cands) == all - Block(p) by {
      PositionsMembers(g);
      BlockMembers(p);
    }
    assert |all| == g.rows * g.cols by {
      RectCard(g.rows, g.cols);
    }
    assert |Block(p)| <= 9 by {
      BlockMembers(p);
    }
    assert all == (all - Block(p)) + (all * Block(p));
    SubsetCard(all * Block(p), Block(p));
  }

  /** On a playable board the shuffled list always reaches index totMines-1,
      wherever the first click lands. */
  lemma EnoughCandidates(g: Grid, p: Pos)
    requires Playable(g)
    ensures |Candidates(g, p)| >= g.totMines
  {
    CandidatesFacts(g, p);
  }

  /** On the 3x3 board the constructor builds, a click in the centre leaves
      no candidate while the clamp still asks for one mine: no shuffled list
      is long enough, and PlaceMines would read past the end of its list.
      Hence the size bound in `Playable`. */
  lemma TinyBoardHasNoCandidates()
    ensures NewGrid(3, 3, 10).Some?
    ensures var g := NewGrid(3, 3, 10).value;
            && Shape(g) && g.totMines == 1 && Candidates(g, Pos(1, 1)) == [] && !Playable(g)
            && forall s: seq<Pos> :: !ValidShuffle(g, Pos(1, 1), s)
  {
    var g := NewGrid(3, 3, 10).value;
    CandidatesFacts(g, Pos(1, 1));
    forall s: seq<Pos> | ValidShuffle(g, Pos(1, 1), s)
      ensures false
    {
    }
  }

  // ---------------------------------------------------------------------
  // Mine placement

  /** The first `n` entries of the shuffled list: the cells that get a mine. */
  ghost function Chosen(shuffled: seq<Pos>, n: int): set<Pos>
    requires 0 <= n <= |shuffled|
  {
    Elements(shuffled[..n])
  }

  /** The shuffle outcome is a permutation of the candidate list and long
      enough for the loop over the first totMines entries. */
  ghost predicate ValidShuffle(g: Grid, p: Pos, shuffled: seq<Pos>) {
    && multiset(shuffled) == multiset(Candidates(g, p))
    && 0 <= g.totMines <= |shuffled|
  }

  /** Marks the first totMines cells of the shuffled candidate list as mines.
      Nothing else changes; on a board without mines the result has exactly
      totMines of them, none in the block of `p`. */
  method PlaceMines(g: Grid, p: Pos, shuffled: seq<Pos>) returns (h: Grid)
    requires Shape(g)
    requires ValidShuffle(g, p, shuffled)
    ensures Shape(h) && SameSize(g, h) && h.totCellShown == g.totCellShown && h.disabled == g.disabled
    ensures forall q :: InBounds(g, q) ==> At(h, q).state == At(g, q).state
    ensures forall q :: q in Chosen(shuffled, g.totMines) ==> InBounds(g, q) && !Adjacent(p, q) && At(h, q).kind == Mine
    ensures forall q :: InBounds(g, q) && q !in Chosen(shuffled, g.totMines) ==> At(h, q) == At(g, q)
    ensures |Chosen(shuffled, g.totMines)| == g.totMines
    ensures Mines(h) == Mines(g) + Chosen(shuffled, g.totMines)
    ensures Mines(g) == {} ==> |Mines(h)| == g.totMines
  {
    CandidatesFacts(g, p);
    PermutationMembers(shuffled, Candidates(g, p));
    h := g;
    var i := 0;
    while i < g.totMines
      invariant 0 <= i <= g.totMines
      invariant Shape(h) && SameSize(g, h) && h.totCellShown == g.totCellShown && h.disabled == g.disabled
      invariant forall q :: InBounds(g, q) ==>
                  At(h, q) == (if q in shuffled[..i] then At(g, q).(kind := Mine) else At(g, q))
    {
      var q := shuffled[i];
      assert q in shuffled;
      h := Put(h, q, At(h, q).(kind := Mine));
      assert shuffled[..i + 1] == shuffled[..i] + [q];
      i := i + 1;
    }
    var chosen := Chosen(shuffled, g.totMines);
    assert shuffled[..g.totMines] == shuffled[..i];
    forall q | q in chosen
      ensures InBounds(g, q) && !Adjacent(p, q)
    {
      assert q in shuffled;
    }
    assert NoDuplicates(shuffled) by {
      forall x
        ensures multiset(shuffled)[x] <= 1
      {
        assert multiset(shuffled)[x] == multiset(Candidates(g, p))[x];
      }
    }
    PrefixNoDuplicates(shuffled, g.totMines);
    DistinctCard(shuffled[..g.totMines]);
    PositionsMembers(g);
    assert Mines(h) == Mines(g) + chosen;
  }

  // ---------------------------------------------------------------------
  // Counting around a cell

  /** The cells of the block of `p` that the loop has passed after `k` steps
      and that are in bounds and satisfy `P`. */
  ghost function VisitedWhere(g: Grid, p: Pos, P: Cell -> bool, k: int): set<Pos>
    requires Shape(g) && 0 <= k <= 9
  {
    set j | 0 <= j < k && InBounds(g, Neighbour(p, j)) && P(At(g, Neighbour(p, j))) :: Neighbour(p, j)
  }

  lemma VisitedStep(g: Grid, p: Pos, P: Cell -> bool, k: int)
    requires Shape(g) && 0 <= k < 9
    ensures Neighbour(p, k) !in VisitedWhere(g, p, P, k)
    ensures VisitedWhere(g, p, P, k + 1)
            == VisitedWhere(g, p, P, k)
               + (if InBounds(g, Neighbour(p, k)) && P(At(g, Neighbour(p, k))) then {Neighbour(p, k)} else {})
  {
    forall j | 0 <= j < k
      ensures Neighbour(p, j) != Neighbour(p, k)
    {
      NeighbourInjective(p, j, k);
    }
  }

  lemma VisitedAll(g: Grid, p: Pos, P: Cell -> bool)
    requires Shape(g)
    ensures VisitedWhere(g, p, P, 9) == AroundWhere(g, p, P)
  {
    BlockMembers(p);
    forall q | q in AroundWhere(g, p, P)
      ensures q in VisitedWhere(g, p, P, 9)
    {
      var k := NeighbourOf(p, q);
    }
  }

  /** The loop over the 3x3 block that counts the in-bounds cells satisfying
      `P`, visiting the block in the row-major order of the source's nested
      loops. */
  method CountAround(g: Grid, p: Pos, P: Cell -> bool) returns (n: int)
    requires Shape(g)
    ensures n == |AroundWhere(g, p, P)|
  {
    n := 0;
    var k := 0;
    while k < 9
      invariant 0 <= k <= 9
      invariant n == |VisitedWhere(g, p, P, k)|
    {
      VisitedStep(g, p, P, k);
      var q := Neighbour(p, k);
      if InBounds(g, q) && P(At(g, q)) {
        n := n + 1;
      }
      k := k + 1;
    }
    VisitedAll(g, p, P);
  }

  /** The number of mines among the in-bounds cells of the block of `p`. */
  method CountAdjacentMines(g: Grid, p: Pos) returns (mines: int)
    requires Shape(g)
    ensures mines == |MinesAround(g, p)|
    ensures InBounds(g, p) && !At(g, p).IsMine() ==> 0 <= mines <= 8
  {
    mines := CountAround(g, p, IsMineCell);
    if InBounds(g, p) && !At(g, p).IsMine() {
      MinesAroundBound(g, p);
    }
  }

  /** Boards with the same mines have the same counts around every cell. */
  lemma SameLayout(g: Grid, h: Grid)
    requires Shape(g) && Shape(h) && SameSize(g, h)
    requires forall q :: InBounds(g, q) ==> At(h, q).IsMine() == At(g, q).IsMine()
    ensures Mines(h) == Mines(g)
    ensures forall p :: MinesAround(h, p) == MinesAround(g, p)
  {
  }

  /** `h` differs from `g` at most in the numbers of cells that are not
      mines. */
  ghost predicate Renumbering(g: Grid, h: Grid)
    requires Shape(g)
  {
    && Shape(h) && SameSize(g, h) && h.totCellShown == g.totCellShown && h.disabled == g.disabled
    && forall q :: InBounds(g, q) ==>
         && At(h, q).state == At(g, q).state
         && At(h, q).IsMine() == At(g, q).IsMine()
         && (At(g, q).IsMine() ==> At(h, q) == At(g, q))
  }

  /** Every cell before (r, c) in row-major order that is not a mine carries
      its count. */
  ghost predicate NumberedBefore(g: Grid, h: Grid, r: int, c: int)
    requires Shape(g) && Renumbering(g, h)
  {
    forall q :: InBounds(g, q) && (q.row < r || (q.row == r && q.col < c)) && !At(g, q).IsMine()
                ==> At(h, q).TotNearMines() == |MinesAround(g, q)|
  }

  /** One step of the numbering loop at (r, c). */
  lemma NumberStep(g: Grid, h: Grid, r: int, c: int, mines: int)
    requires Shape(g) && Renumbering(g, h) && NumberedBefore(g, h, r, c)
    requires InBounds(g, Pos(r, c)) && !At(h, Pos(r, c)).IsMine()
    requires mines == |MinesAround(h, Pos(r, c))|
    ensures Renumbering(g, Put(h, Pos(r, c), At(h, Pos(r, c)).SetType(mines)))
    ensures NumberedBefore(g, Put(h, Pos(r, c), At(h, Pos(r, c)).SetType(mines)), r, c + 1)
  {
    SameLayout(g, h);
    MinesAroundBound(g, Pos(r, c));
  }

  /** The loop over one row of CalculateNearMines. */
  method NumberRow(g: Grid, h0: Grid, r: int) returns (h: Grid)
    requires Shape(g) && 0 <= r < g.rows && Renumbering(g, h0) && NumberedBefore(g, h0, r, 0)
    ensures Renumbering(g, h) && NumberedBefore(g, h, r + 1, 0)
  {
    h := h0;
    var c := 0;
    while c < g.cols
      invariant 0 <= c <= g.cols
      invariant Renumbering(g, h) && NumberedBefore(g, h, r, c)
    {
      var pos := Pos(r, c);
      var cell := At(h, pos);
      if !cell.IsMine() {
        var mines := CountAdjacentMines(h, pos);
        NumberStep(g, h, r, c, mines);
        h := Put(h, pos, cell.SetType(mines));
      }
      c := c + 1;
    }
  }

  /** Writes into every cell that is not a mine the number of mines in its
      block. Mines, visibility and everything else stay as they are. */
  method CalculateNearMines(g: Grid) returns (h: Grid)
    requires Shape(g)
    ensures Shape(h) && SameSize(g, h) && h.totCellShown == g.totCellShown && h.disabled == g.disabled
    ensures forall q :: InBounds(g, q) ==> At(h, q).state == At(g, q).state
    ensures forall q :: InBounds(g, q) ==> At(h, q).IsMine() == At(g, q).IsMine()
    ensures forall q :: InBounds(g, q) && At(g, q).IsMine() ==> At(h, q) == At(g, q)
    ensures Mines(h) == Mines(g)
    ensures Counted(h)
  {
    h := g;
    var r := 0;
    while r < g.rows
      invariant 0 <= r <= g.rows
      invariant Renumbering(g, h) && NumberedBefore(g, h, r, 0)
    {
      h := NumberRow(g, h, r);
      r := r + 1;
    }
    SameLayout(g, h);
  }

  /** What generation keeps of the board it starts from: no mine lands in
      the block of `p`, and on a board without mines the placed ones number
      exactly totMines. */
  lemma PlacedOutsideBlock(g: Grid, placed: Grid, h: Grid, p: Pos, chosen: set<Pos>)
    requires Shape(g) && Shape(placed) && Shape(h) && SameSize(g, placed) && SameSize(g, h)
    requires forall q :: q in chosen ==> InBounds(g, q) && !Adjacent(p, q) && At(placed, q).kind == Mine
    requires forall q :: InBounds(g, q) && q !in chosen ==> At(placed, q) == At(g, q)
    requires forall q :: InBounds(g, q) ==> At(h, q).IsMine() == At(placed, q).IsMine()
    requires |chosen| == g.totMines && Mines(placed) == Mines(g) + chosen && Mines(h) == Mines(placed)
    ensures forall q :: InBounds(g, q) && Adjacent(p, q) ==> At(h, q).IsMine() == At(g, q).IsMine()
    ensures Mines(g) == {} ==> |Mines(h)| == g.totMines
  {
  }

  /** Enabling a board changes none of its cells. */
  lemma EnabledSame(g: Grid, p: Pos)
    requires Shape(g)
    ensures var e := g.(disabled := false);
            Shape(e) && e.cells == g.cells && Mines(e) == Mines(g)
            && Candidates(e, p) == Candidates(g, p)
  {
  }

  /** Board generation on the first reveal at `p`: enables the board, places
      the mines and numbers the board. On a board without mines (every board
      after the constructor or `Reset`) the block of `p` stays mine-free and
      exactly totMines mines are placed. */
  method Generate(g: Grid, p: Pos, shuffled: seq<Pos>) returns (h: Grid)
    requires Shape(g)
    requires ValidShuffle(g, p, shuffled)
    ensures Shape(h) && SameSize(g, h) && h.totCellShown == g.totCellShown && !h.disabled
    ensures forall q :: InBounds(g, q) ==> At(h, q).state == At(g, q).state
    ensures Counted(h)
    ensures forall q :: InBounds(g, q) && Adjacent(p, q) ==> At(h, q).IsMine() == At(g, q).IsMine()
    ensures Mines(g) == {} ==> |Mines(h)| == g.totMines
  {
    var enabled := g.(disabled := false);
    EnabledSame(g, p);
    var placed := PlaceMines(enabled, p, shuffled);
    h := CalculateNearMines(placed);
    PlacedOutsideBlock(g, placed, h, p, Chosen(shuffled, g.totMines));
  }
}

=== FILE: grids.dfy ===
/** The board: a rows x cols array of cells, the clamped number of mines, the
    running count of revealed cells and whether the board still takes clicks.
    This module holds the shape of a board, its coordinates, the sets the
    algorithms are specified against, the constructor and `Reset`. */
module Grids {
  import opened Options
  import opened Cells

  datatype Pos = Pos(row: int, col: int)

  /** `disabled` stands for the board node being disabled after a win or a
      loss: a disabled board receives no mouse clicks. */
  datatype Grid = Grid(rows: int, cols: int, cells: seq<seq<Cell>>,
                       totMines: int, totCellShown: int, disabled: bool)

  /** Every row has `cols` cells and there are `rows` rows. */
  predicate Shape(g: Grid) {
    && 0 <= g.rows && 0 <= g.cols && |g.cells| == g.rows
    && forall r :: 0 <= r < g.rows ==> |g.cells[r]| == g.cols
  }

  predicate InBounds(g: Grid, p: Pos) {
    0 <= p.row < g.rows && 0 <= p.col < g.cols
  }

  function At(g: Grid, p: Pos): Cell
    requires Shape(g) && InBounds(g, p)
  {
    g.cells[p.row][p.col]
  }

  /** Two boards of the same dimensions and mine count. */
  predicate SameSize(g: Grid, h: Grid) {
    g.rows == h.rows && g.cols == h.cols && g.totMines == h.totMines
  }

  /** Replaces the cell at `p`, nothing else. */
  function Put(g: Grid, p: Pos, c: Cell): (h: Grid)
    requires Shape(g) && InBounds(g, p)
    ensures Shape(h) && SameSize(g, h)
    ensures h.totCellShown == g.totCellShown && h.disabled == g.disabled
    ensures At(h, p) == c
    ensures forall q :: InBounds(g, q) && q != p ==> At(h, q) == At(g, q)
  {
    g.(cells := g.cells[p.row := g.cells[p.row][p.col := c]])
  }

  /** `cell.Show(); totCellShown++`, the reveal step shared by the flood fill
      and the assisted reveal. */
  function Reveal(g: Grid, p: Pos): (h: Grid)
    requires Shape(g) && InBounds(g, p)
    ensures Shape(h) && SameSize(g, h) && h.disabled == g.disabled
    ensures h.totCellShown == g.totCellShown + 1
    ensures At(h, p) == At(g, p).Show()
    ensures forall q :: InBounds(g, q) && q != p ==> At(h, q) == At(g, q)
  {
    var h := Put(g, p, At(g, p).Show());
    h.(totCellShown := g.totCellShown + 1)
  }

  // ---------------------------------------------------------------------
  // The 3x3 block around a cell

  /** `q` lies in the 3x3 block centred on `p` (Chebyshev distance at most 1;
      `p` itself included, as in every loop of the board over r-1..r+1,
      c-1..c+1). */
  predicate Adjacent(p: Pos, q: Pos) {
    p.row - 1 <= q.row <= p.row + 1 && p.col - 1 <= q.col <= p.col + 1
  }

  /** The offsets of the 3x3 block in the order the board's nested loops
      visit them: row by row, column by column. */
  const Around: seq<(int, int)> :=
    [(-1, -1), (-1, 0), (-1, 1), (0, -1), (0, 0), (0, 1), (1, -1), (1, 0), (1, 1)]

  /** The k-th cell visited by a loop over the block of `p`. */
  function Neighbour(p: Pos, k: int): (q: Pos)
    requires 0 <= k < 9
    ensures Adjacent(p, q)
  {
    Pos(p.row + Around[k].0, p.col + Around[k].1)
  }

  /** Every cell of the block is visited, at a computable step. */
  lemma NeighbourOf(p: Pos, q: Pos) returns (k: int)
    requires Adjacent(p, q)
    ensures 0 <= k < 9 && Neighbour(p, k) == q
  {
    k := (q.row - p.row + 1) * 3 + (q.col - p.col + 1);
  }

  /** The loop over the block never visits a cell twice. */
  lemma NeighbourInjective(p: Pos, j: int, k: int)
    requires 0 <= j < 9 && 0 <= k < 9 && j != k
    ensures Neighbour(p, j) != Neighbour(p, k)
  {
  }

  /** The 3x3 block as a set. */
  ghost function Block(p: Pos): set<Pos> {
    { Pos(p.row - 1, p.col - 1), Pos(p.row - 1, p.col), Pos(p.row - 1, p.col + 1),
      Pos(p.row, p.col - 1), Pos(p.row, p.col), Pos(p.row, p.col + 1),
      Pos(p.row + 1, p.col - 1), Pos(p.row + 1, p.col), Pos(p.row + 1, p.col + 1) }
  }

  lemma BlockMembers(p: Pos)
    ensures forall q :: q in Block(p) <==> Adjacent(p, q)
    ensures |Block(p)| <= 9
  {
  }

  // ---------------------------------------------------------------------
  // Sets of cells the algorithms are specified against

  /** All coordinates of a rows x cols board. */
  ghost function Rect(rows: int, cols: int): set<Pos> {
    set r, c | 0 <= r < rows && 0 <= c < cols :: Pos(r, c)
  }

  lemma RectMembers(rows: int, cols: int)
    ensures forall q :: q in Rect(rows, cols) <==> 0 <= q.row < rows && 0 <= q.col < cols
  {
    forall q: Pos | 0 <= q.row < rows && 0 <= q.col < cols
      ensures q in Rect(rows, cols)
    {
      assert q == Pos(q.row, q.col);
    }
  }

  ghost function RowSet(r: int, cols: int): set<Pos> {
    set c | 0 <= c < cols :: Pos(r, c)
  }

  lemma {:induction false} RowSetCard(r: int, cols: nat)
    ensures |RowSet(r, cols)| == cols
  {
    if cols > 0 {
      RowSetCard(r, cols - 1);
      assert RowSet(r, cols) == RowSet(r, cols - 1) + {Pos(r, cols - 1)};
    } else {
      assert RowSet(r, cols) == {};
    }
  }

  /** A board is its last row plus the board one row shorter. */
  lemma RectSplit(rows: int, cols: int)
    requires rows > 0
    ensures Rect(rows, cols) == Rect(rows - 1, cols) + RowSet(rows - 1, cols)
    ensures Rect(rows - 1, cols) * RowSet(rows - 1, cols) == {}
  {
    RectMembers(rows, cols);
    RectMembers(rows - 1, cols);
    forall q: Pos | q in RowSet(rows - 1, cols)
      ensures q.row == rows - 1 && 0 <= q.col < cols
    {
    }
    forall q: Pos | q.row == rows - 1 && 0 <= q.col < cols
      ensures q in RowSet(rows - 1, cols)
    {
      assert q == Pos(rows - 1, q.col);
    }
  }

  /** A board has rows * cols coordinates. */
  lemma {:induction false} RectCard(rows: nat, cols: nat)
    ensures |Rect(rows, cols)| == rows * cols
  {
    if rows == 0 {
      assert Rect(rows, cols) == {};
    } else {
      RectCard(rows - 1, cols);
      RowSetCard(rows - 1, cols);
      RectSplit(rows, cols);
      assert (rows - 1) * cols + cols == rows * cols;
    }
  }

  ghost function Positions(g: Grid): set<Pos> {
    Rect(g.rows, g.cols)
  }

  lemma PositionsMembers(g: Grid)
    ensures forall q :: q in Positions(g) <==> InBounds(g, q)
  {
    RectMembers(g.rows, g.cols);
  }

  /** The revealed cells. */
  ghost function ShownSet(g: Grid): set<Pos>
    requires Shape(g)
  {
    set q | q in Positions(g) && InBounds(g, q) && At(g, q).IsShown()
  }

  /** The cells not revealed yet. */
  ghost function Unshown(g: Grid): set<Pos>
    requires Shape(g)
  {
    set q | q in Positions(g) && InBounds(g, q) && !At(g, q).IsShown()
  }

  /** Revealing a hidden cell adds exactly that cell to the revealed ones. */
  lemma RevealSets(g: Grid, p: Pos)
    requires Shape(g) && InBounds(g, p) && !At(g, p).IsShown()
    ensures p !in ShownSet(g) && ShownSet(Reveal(g, p)) == ShownSet(g) + {p}
    ensures p in Unshown(g) && Unshown(Reveal(g, p)) == Unshown(g) - {p}
  {
    PositionsMembers(g);
    PositionsMembers(Reveal(g, p));
  }

  /** The cells holding a mine (live or exploded). */
  ghost function Mines(g: Grid): set<Pos>
    requires Shape(g)
  {
    set q | q in Positions(g) && InBounds(g, q) && At(g, q).IsMine()
  }

  function IsMineCell(c: Cell): bool { c.IsMine() }
  function IsFlagCell(c: Cell): bool { c.IsFlag() }

  /** The in-bounds cells of the block of `p` that satisfy `P`. */
  ghost function AroundWhere(g: Grid, p: Pos, P: Cell -> bool): set<Pos>
    requires Shape(g)
  {
    set q | q in Block(p) && InBounds(g, q) && P(At(g, q))
  }

  ghost function MinesAround(g: Grid, p: Pos): set<Pos>
    requires Shape(g)
  {
    AroundWhere(g, p, IsMineCell)
  }

  /** A cell that is not a mine has at most eight mines in its block. */
  lemma MinesAroundBound(g: Grid, p: Pos)
    requires Shape(g) && InBounds(g, p) && !At(g, p).IsMine()
    ensures |MinesAround(g, p)| <= 8
  {
    BlockMembers(p);
    var others := Block(p) - {p};
    assert p in Block(p);
    assert |others| == |Block(p)| - 1;
    assert MinesAround(g, p) <= others;
    SubsetCard(MinesAround(g, p), others);
  }

  lemma SubsetCard<T>(a: set<T>, b: set<T>)
    requires a <= b
    ensures |a| <= |b|
  {
    assert b == a + (b - a);
  }

  /** Every number on the board is the count of mines in its block. */
  ghost predicate Counted(g: Grid)
    requires Shape(g)
  {
    forall p :: InBounds(g, p) && !At(g, p).IsMine() ==> At(g, p).TotNearMines() == |MinesAround(g, p)|
  }

  /** No cell tagged ZERO has a mine in its block. */
  ghost predicate ZeroSafe(g: Grid)
    requires Shape(g)
  {
    forall p, q :: InBounds(g, p) && InBounds(g, q) && Adjacent(p, q) && At(g, p).kind == Near(0)
                   ==> !At(g, q).IsMine()
  }

  lemma CountedZeroSafe(g: Grid)
    requires Shape(g) && Counted(g)
    ensures ZeroSafe(g)
  {
    forall p, q | InBounds(g, p) && InBounds(g, q) && Adjacent(p, q) && At(g, p).kind == Near(0)
      ensures !At(g, q).IsMine()
    {
      BlockMembers(p);
      assert |MinesAround(g, p)| == 0;
      assert q !in MinesAround(g, p);
    }
  }

  /** The sets that depend only on the content tags agree on boards with the
      same tags. */
  lemma SameKindsSameMines(g: Grid, h: Grid)
    requires Shape(g) && Shape(h) && SameSize(g, h)
    requires forall q :: InBounds(g, q) ==> At(h, q).kind == At(g, q).kind
    ensures Mines(h) == Mines(g)
    ensures forall p :: MinesAround(h, p) == MinesAround(g, p)
    ensures Counted(g) ==> Counted(h)
    ensures ZeroSafe(g) ==> ZeroSafe(h)
  {
  }

  // ---------------------------------------------------------------------
  // Construction and reset

  function Min(a: int, b: int): int { if a <= b then a else b }
  function Max(a: int, b: int): int { if a >= b then a else b }

  /** The constructor keeps the mine count between 1 and the number of cells
      outside a 3x3 block, so that the first click can always be safe. */
  function ClampMines(rows: int, cols: int, requested: int): (m: int)
    ensures m >= 1
    ensures rows * cols >= 10 ==> m <= rows * cols - 9
    ensures 1 <= requested <= rows * cols - 9 ==> m == requested
    ensures requested > rows * cols - 9 && rows * cols >= 10 ==> m == rows * cols - 9
    ensures requested < 1 ==> m == 1
    ensures rows * cols <= 9 ==> m == 1
  {
    Max(1, Min(requested, rows * cols - 9))
  }

  /** A board whose cells are all fresh, with the given size. */
  function FreshCells(rows: nat, cols: nat): (cells: seq<seq<Cell>>)
    ensures |cells| == rows
    ensures forall r :: 0 <= r < rows ==> cells[r] == seq(cols, _ => Fresh)
  {
    seq(rows, _ => seq(cols, _ => Fresh))
  }

  /** The constructor. Negative dimensions make the array allocation throw;
      that is the `None` result. */
  function NewGrid(rows: int, cols: int, requested: int): (r: Option<Grid>)
    ensures r.Some? <==> rows >= 0 && cols >= 0
    ensures r.Some? ==> Shape(r.value) && Pristine(r.value) && r.value.rows == rows && r.value.cols == cols
    ensures r.Some? ==> r.value.totMines == ClampMines(rows, cols, requested)
  {
    if rows < 0 || cols < 0 then None
    else Some(Grid(rows, cols, FreshCells(rows, cols), ClampMines(rows, cols, requested), 0, false))
  }

  /** A board as the constructor or `Reset` leaves it. */
  ghost predicate Pristine(g: Grid)
    requires Shape(g)
  {
    && g.totCellShown == 0 && !g.disabled
    && forall q :: InBounds(g, q) ==> At(g, q) == Fresh
  }

  /** Clears the count of revealed cells, enables the board and resets every
      cell to ZERO / EMPTY, keeping dimensions and mine count. */
  function Reset(g: Grid): (h: Grid)
    requires Shape(g)
    ensures Shape(h) && SameSize(g, h) && Pristine(h)
  {
    g.(cells := FreshCells(g.rows, g.cols), totCellShown := 0, disabled := false)
  }

  /** Resetting a board gives exactly the board the constructor builds for its
      dimensions and mine count, whenever that count is one the clamp keeps
      (every board the constructor builds has such a count). */
  lemma ResetIsNew(g: Grid)
    requires Shape(g) && g.totMines == ClampMines(g.rows, g.cols, g.totMines)
    ensures NewGrid(g.rows, g.cols, g.totMines) == Some(Reset(g))
  {
  }

  // ---------------------------------------------------------------------
  // The invariant of a board in play

  /** Dimensions for which every first click leaves room for all mines. */
  ghost predicate Playable(g: Grid) {
    && Shape(g) && g.rows * g.cols >= 10
    && 1 <= g.totMines <= g.rows * g.cols - 9
  }

  /** What holds of a board after every completed move: the running count
      is the number of revealed cells; before the first reveal no mine is
      placed; after it the mines are placed, counted, and none is
      revealed. */
  ghost predicate Settled(g: Grid)
    requires Shape(g)
  {
    && g.totCellShown == |ShownSet(g)|
    && (g.totCellShown == 0 ==> forall q :: InBounds(g, q) ==> At(g, q).kind == Near(0))
    && (g.totCellShown > 0 ==> Generated(g))
  }

  /** An enabled board between clicks: settled, and not won yet. */
  ghost predicate Live(g: Grid)
    requires Shape(g)
  {
    Settled(g) && g.totCellShown < g.rows * g.cols - g.totMines
  }

  /** After generation: exactly `totMines` mines, every number correct, and no
      mine revealed. */
  ghost predicate Generated(g: Grid)
    requires Shape(g)
  {
    && Counted(g) && |Mines(g)| == g.totMines
    && forall q :: InBounds(g, q) && At(g, q).IsMine() ==> !At(g, q).IsShown()
  }

  ghost predicate GameInv(g: Grid) {
    Playable(g) && (!g.disabled ==> Live(g))
  }

  /** A new (or reset) board of playable size satisfies the invariant. */
  lemma NewGridInv(rows: int, cols: int, requested: int)
    requires rows >= 0 && cols >= 0 && rows * cols >= 10
    ensures GameInv(NewGrid(rows, cols, requested).value)
  {
    var g := NewGrid(rows, cols, requested).value;
    assert ShownSet(g) == {};
  }
}

=== FILE: seqs.dfy ===
/** Facts about sequences without repeated elements, used for the candidate
    list of mine placement. */
module Seqs {

  /** No element occurs twice. */
  ghost predicate NoDuplicates<T(!new)>(xs: seq<T>) {
    forall x :: multiset(xs)[x] <= 1
  }

  ghost function Elements<T>(xs: seq<T>): set<T> {
    set x | x in xs
  }

  /** A sequence without repetitions has as many distinct elements as it has
      positions. */
  lemma {:induction false} DistinctCard<T(!new)>(xs: seq<T>)
    requires NoDuplicates(xs)
    ensures |Elements(xs)| == |xs|
  {
    if xs != [] {
      var ys, x := xs[..|xs| - 1], xs[|xs| - 1];
      assert xs == ys + [x];
      assert multiset(xs) == multiset(ys) + multiset{x};
      forall y
        ensures multiset(ys)[y] <= 1
      {
        assert multiset(ys)[y] <= multiset(xs)[y];
      }
      assert multiset(xs)[x] <= 1;
      assert multiset(xs)[x] == multiset(ys)[x] + 1;
      assert multiset(ys)[x] == 0;
      assert x !in ys;
      DistinctCard(ys);
      assert Elements(xs) == Elements(ys) + {x};
    } else {
      assert Elements(xs) == {};
    }
  }

  /** A prefix of a sequence without repetitions has none either. */
  lemma PrefixNoDuplicates<T(!new)>(xs: seq<T>, n: int)
    requires NoDuplicates(xs) && 0 <= n <= |xs|
    ensures NoDuplicates(xs[..n])
  {
    assert xs == xs[..n] + xs[n..];
    assert multiset(xs) == multiset(xs[..n]) + multiset(xs[n..]);
    forall y
      ensures multiset(xs[..n])[y] <= 1
    {
      assert multiset(xs[..n])[y] <= multiset(xs)[y];
    }
  }

  /** Joining two sequences without repetitions and without common elements
      gives a sequence without repetitions. */
  lemma AppendNoDuplicates<T(!new)>(a: seq<T>, b: seq<T>)
    requires NoDuplicates(a) && NoDuplicates(b)
    requires forall x :: x in a ==> x !in b
    ensures NoDuplicates(a + b)
  {
    assert multiset(a + b) == multiset(a) + multiset(b);
    forall x
      ensures multiset(a + b)[x] <= 1
    {
      if x in a {
        assert x !in b;
        assert multiset(b)[x] == 0;
      } else {
        assert multiset(a)[x] == 0;
      }
    }
  }

  /** Sequences that are permutations of each other have the same elements. */
  lemma PermutationMembers<T>(xs: seq<T>, ys: seq<T>)
    requires multiset(xs) == multiset(ys)
    ensures forall x :: x in xs <==> x in ys
  {
    forall x
      ensures x in xs <==> x in ys
    {
      assert x in xs <==> x in multiset(xs);
      assert x in ys <==> x in multiset(ys);
    }
  }
}
